=== FILE: README.md ===
# Icon-grid reordering and folder-list editing, modelled in Dafny

This project models the pure, sequential logic of a PyQt file browser and proves
properties about it. The logic covered has two parts.

**The icon grid** (`IconViewExplorer.py`):

- `is_image` classifies a path by the extension that `os.path.splitext` finds.
- `ThumbnailListView.reorderTheTarget` moves the selected rows of the grid as one block
  next to the drop target.
- `dropEvent`, with `get_icon_coordinates`, turns a drop point into a target row and a
  side.
- `ThumbnailItemDelegate.wrap_text` breaks a caption into lines, character by character.
- `ThumbnailModel.load_files`, `update_files` and `mimeData` build the row list from a
  path list and export rows back to paths.

**The folder list** (`SelectedFolders.py`):

- `select_folder` appends a folder.
- `remove_folder` removes the selected rows.
- `save_folders` applies the `.fecf` file-name rule and writes one folder per line.
- `load_folders` reads a folder file, strips each line and merges the lines in without
  duplicates.
- `get_folder_list` returns the list.

Everything is a pure function over sequences, strings and integers, or a method with a
loop. Qt's model calls are written with Qt's own behaviour: `takeRow` and `insertRow`
with an out-of-range row do nothing, and `indexFromItem` of an absent item has row -1.
This way the proofs show that the reorder never relies on those cases. Rows are item
identities and are pairwise distinct, because the source compares items with `is`.

Several outside inputs become parameters:

- the font's horizontal advance (`width`);
- `os.path.isfile` (`isFile`);
- the rectangles that `visualRect` reports (`rects`);
- a dialog's result (an empty string, or `None`, for a cancelled dialog);
- the text read from a folder file (`content`).

`update_selected_folders` is modelled as the `notified` field of the panel's `Effect`.

Modules:

| file | module | models |
|---|---|---|
| wrappers.dfy | `Wrappers` | `Option` |
| subseq.dfy | `Subseq` | `Pick`: the entries at the positions of a set, in position order |
| pystr.dfy | `PyStr` | `rfind`, `endswith`, ASCII `lower`, `isspace`, `strip`, `readlines` |
| pypath.dfy | `PyPath` | POSIX `splitext`, `basename`, `dirname`, `join`; `is_image` |
| reorder.dfy | `Reordering` | `reorderTheTarget` |
| drop.dfy | `DropTarget` | `dropEvent` target resolution, `get_icon_coordinates` |
| wrap.dfy | `Wrap` | `wrap_text` |
| thumbnail_model.dfy | `ThumbnailModel` | `load_files`, `update_files`, `mimeData` |
| selected_folders.dfy | `SelectedFolders` | the folder panel's actions |

### What a reorder does

`Reordering.ReorderShape` gives the shape of every reorder. Take the unselected rows in
their original order, and insert the selected rows, in ascending original order, as one
block at position `Slot`. `Slot` is the number of unselected rows before the target, plus
one when dropping after it. The exception is a target that is itself dragged and has no
unselected row after it. There the block goes to the end.

`Reordering.LastRowGuardNeeded` shows why the source has its `rowCount()-1` check. Without
it, the insertion row would be one past the end. Qt refuses that insert, so every
dragged item would be lost.

`Reordering.ReorderDraggedTarget` states the case where the target is itself dragged and
the drop goes "after". The block lands after the first unselected row that followed the
target, not where the target was.

### Behaviour worth knowing

- **Export order.** `mimeData` exports one path per valid index, in the order of the
  indexes it is given (IconViewExplorer.py:211). `startDrag` passes `selectedIndexes()`
  as it comes (IconViewExplorer.py:27-30), so the paths follow the selection order, not
  the row order. `ThumbnailModel.MimeDataValid` and `ThumbnailModel.MimeDataAt` state this.
- **Rejoined paths.** `dirname` drops the whole run of separators before the base name,
  and `join` puts back only one. So `a//b` is exported as `a/b`, which names the same
  file. `ThumbnailModel.ExportRoundTrip` states exactly when the export gives the paths
  back.
- **The last-row check.** When the dragged rows include the target and the drop goes
  after it, the code checks whether the target is now the last row
  (IconViewExplorer.py:58). If it is, the block is inserted at the target's own row.
  Otherwise it goes one row further. `Reordering.LastRowGuardNeeded` shows what the
  check prevents.

## Model

| member | source | states |
|---|---|---|
| PyPath.SplitExtFinds | IconViewExplorer.py:11 | `splitext` finds an extension exactly when there is a dot with no dot or separator after it and a non-dot character before it in its path component; it splits there |
| PyPath.SplitExt | IconViewExplorer.py:11 | the root and the extension concatenate back to the path; a non-empty extension starts with its only dot and holds no separator |
| PyPath.IsImage | IconViewExplorer.py:9-12 | a path is an image exactly when it has an extension whose lower-case form is one of the seven listed |
| PyPath.UpperCaseIsImage | IconViewExplorer.py:9-12 | "A.PNG" is an image: the comparison is on the lower-cased extension |
| PyPath.LastExtensionOnly | IconViewExplorer.py:9-12 | "a.png.txt" is not an image: only the last extension counts |
| PyPath.DotFileIsNotImage | IconViewExplorer.py:9-12 | ".png" (a leading-dot name) and "x" (no extension) are not images |
| PyPath.BasenameShape | IconViewExplorer.py:182 | the base name is the end of the path after its last separator, and holds no separator |
| PyPath.DirnameShape | IconViewExplorer.py:184 | the directory is a prefix of the path up to and including its last separator: that whole prefix when it is all separators, otherwise that prefix with its trailing separators removed, ending in a non-separator |
| PyPath.RStripSlash | IconViewExplorer.py:184 | `rstrip('/')` keeps a prefix, drops only separators, and leaves no separator at the end |
| PyPath.JoinShape | IconViewExplorer.py:213 | joining to an absolute name gives the name; otherwise the directory, then one separator only when the directory is non-empty and does not already end in one, then the name |
| PyPath.JoinRoundTrip | IconViewExplorer.py:213 | joining a path's directory and base name gives the path back exactly when its last separator is not part of a collapsed run |
| PyPath.JoinCollapses | IconViewExplorer.py:213 | "a//b" is rejoined as "a/b" |
| PyStr.RFind | IconViewExplorer.py:11 | `rfind` returns the last position holding the character, or -1 when there is none |
| PyStr.Lower | IconViewExplorer.py:12 | `lower` keeps the length, turns each capital into its small letter, keeps every other character, and leaves no capital |
| PyStr.LowerIdempotent | IconViewExplorer.py:12 | lower-casing twice is lower-casing once |
| PyStr.Strip | SelectedFolders.py:64 | `strip` returns a window of the line, with no whitespace at its ends, and everything outside the window is whitespace |
| PyStr.WindowUnique | SelectedFolders.py:64 | the window is unique: any part of the line with no whitespace at its ends and only whitespace around it is what `strip` returns |
| PyStr.StripEach | SelectedFolders.py:64 | stripping every line gives one entry per line, that line's window |
| PyStr.StripLine | SelectedFolders.py:64 | a trimmed line followed by its newline strips back to the line |
| PyStr.ReadLines | SelectedFolders.py:64 | `readlines` pieces concatenate back to the text, none is empty, every piece but the last ends in a newline, and no piece holds a newline before its last character |
| PyStr.ReadLinesOfLines | SelectedFolders.py:64 | text made of newline-terminated, otherwise newline-free lines reads back as exactly those lines |
| Reordering.TakeRowShape | IconViewExplorer.py:51 | `takeRow` of an existing row closes the gap and keeps the other rows in order; of a missing row it changes nothing |
| Reordering.InsertRowShape | IconViewExplorer.py:68 | `insertRow` at `0..rowCount()` puts the item there and shifts the later rows up by one; at any other row it changes nothing |
| Reordering.TakeInsertedRow | IconViewExplorer.py:51-68 | taking out the row just inserted gives the rows back |
| Reordering.RowOf | IconViewExplorer.py:55 | `indexFromItem` gives the first row holding the item, or -1 exactly when it is absent |
| Reordering.InsertAllInRange | IconViewExplorer.py:67-68 | inserting items one by one at consecutive rows from a valid row splices them in as one block |
| Reordering.InsertAllPastEnd | IconViewExplorer.py:67-68 | inserting from past the end inserts nothing |
| Reordering.TakeSelectedKeeps | IconViewExplorer.py:49-51 | the removal loop, walking the sorted pairs from the highest row down, leaves exactly the unselected rows and the target, in order |
| Reordering.TakeSelectedSees | IconViewExplorer.py:49-53 | the removal loop notes the target exactly when the target is among the selected pairs |
| Reordering.RemovalResult | IconViewExplorer.py:45-53 | after the removal loop the rows are the unselected rows before the target, the target, and the unselected rows after it, and the flag says whether the target was selected |
| Reordering.ReinsertAround | IconViewExplorer.py:55-68 | after the removal, the insertion row is the target's row, plus one when dropping after unless the selected target is the last row; a selected target is taken out before the items go in |
| Reordering.ReorderInsertsAtSlot | IconViewExplorer.py:43-68 | a reorder inserts the selected rows into the unselected rows at `Slot`, which is never past the end |
| Reordering.ReorderShape | IconViewExplorer.py:43-68 | the result is the unselected rows in original order with the selected rows, in ascending original order, spliced in as one block at `Slot` |
| Reordering.ReorderPermutes | IconViewExplorer.py:43-68 | no row is lost or duplicated: the row count and the multiset of rows are unchanged |
| Reordering.ReorderBlock | IconViewExplorer.py:45-68 | the selected rows occupy one contiguous run in ascending original order, and cutting it out leaves the unselected rows in their original order |
| Reordering.ReorderBesideTarget | IconViewExplorer.py:55-68 | with the target unselected, the block lands right before the target, or right after it when dropping after |
| Reordering.ReorderDraggedTarget | IconViewExplorer.py:55-68 | with the target selected, the block lands where the target was; dropping after moves it past the next unselected row, and with none left it is appended at the end |
| Reordering.LastRowGuardNeeded | IconViewExplorer.py:56-68 | without the last-row check, a selected last target would make the insertion row past the end, and every dragged row would be dropped |
| DropTarget.HalfTowardZero | IconViewExplorer.py:39-40 | halving truncates toward zero as C++ does: the result is exactly half, or half of one less for an odd positive, or of one more for an odd negative |
| DropTarget.Center | IconViewExplorer.py:33-42 | each coordinate of a rectangle's centre is half the sum of its corners, truncated toward zero, and lies between the corners when the rectangle is not empty |
| DropTarget.Nearest | IconViewExplorer.py:86-94 | the chosen row has the least distance to the drop point, and every earlier row is strictly farther: the first minimum wins |
| DropTarget.ResolveDrop | IconViewExplorer.py:72-95 | below the last row's band, or in it right of its rectangle, the drop goes after the last row; otherwise to the nearest centre, after it when the point is right of that centre |
| DropTarget.DropNearCentre | IconViewExplorer.py:86-94 | a drop strictly nearest to one centre, outside the last row's bands, resolves to that row |
| DropTarget.DropReorder | IconViewExplorer.py:70-96 | a drop from the view itself permutes the rows and splices the dragged block in at the slot of the resolved target |
| Wrap.WrapText | IconViewExplorer.py:137-138 | no text wraps to the empty string |
| Wrap.ConsumeLine | IconViewExplorer.py:141-148 | after the loop, the current line is the text from the last greedy break on |
| Wrap.ConsumeWrapped | IconViewExplorer.py:140-149 | the loop's output is the text with a newline inserted before each greedy break |
| Wrap.WrapTextGreedy | IconViewExplorer.py:137-149 | the output is the text with a newline inserted before exactly the characters where the line, with them added, measures more than the limit; with its newlines removed, the output equals the text with its newlines removed |
| Wrap.GreedyUnique | IconViewExplorer.py:142-148 | at most one set of break positions follows the greedy rule, so the rule determines the output |
| Wrap.LinesFit | IconViewExplorer.py:142-148 | every line of two or more characters, and every such prefix of one, measures at most the limit |
| Wrap.LeadingBreak | IconViewExplorer.py:142-146 | the output starts with a newline exactly when the first character alone is wider than the limit |
| Wrap.MonospacedExample | IconViewExplorer.py:131-149 | with an advance of 10 per character and a limit of 30, "abcdefgh" becomes "abc\ndef\ngh" |
| ThumbnailModel.Regular | IconViewExplorer.py:180-181 | the paths kept are regular files, and no more than were given; RegularAppend and RegularOne state that they keep input order |
| ThumbnailModel.RegularAppend | IconViewExplorer.py:180-181 | the filter keeps input order: filtering two lists one after the other is filtering each, in that order |
| ThumbnailModel.RegularOne | IconViewExplorer.py:180-181 | a single path is kept exactly when it is a regular file |
| ThumbnailModel.RegularCounts | IconViewExplorer.py:180-181 | each regular path is kept as often as it occurs, and nothing else is kept |
| ThumbnailModel.LoadFiles | IconViewExplorer.py:179-187 | loading keeps the existing rows and appends one row per regular file, in order, holding its base name and directory |
| ThumbnailModel.NewModel | IconViewExplorer.py:168-172 | a new model remembers its path list and has one row per regular file, in order |
| ThumbnailModel.UpdateFiles | IconViewExplorer.py:174-177 | an update replaces the path list and all rows with one row per regular file of the new list |
| ThumbnailModel.UpdateFilesIdempotent | IconViewExplorer.py:174-177 | updating twice with the same list is updating once, and equals building a new model from it |
| ThumbnailModel.MimeDataValid | IconViewExplorer.py:208-216 | with every index valid, the export has one path per index: that row's rejoined path, in the order the indexes come |
| ThumbnailModel.MimeDataAppend | IconViewExplorer.py:211-214 | the export of two index lists one after the other is the two exports one after the other |
| ThumbnailModel.MimeDataAt | IconViewExplorer.py:211-214 | an index anywhere in the list adds its row's rejoined path at that place when it is valid, and nothing when it is not |
| ThumbnailModel.ExportRejoins | IconViewExplorer.py:179-216 | exporting every row of a rebuilt model gives each regular file's directory joined with its base name |
| ThumbnailModel.ExportRoundTrip | IconViewExplorer.py:179-216 | exporting every row of a rebuilt model gives back its regular files exactly when none has a collapsed separator run before its base name |
| SelectedFolders.SelectFolder | SelectedFolders.py:36-44 | a chosen folder is appended at the end, even when already listed, and the new list is handed on; a cancelled dialog changes nothing |
| SelectedFolders.RemoveFolders | SelectedFolders.py:46-51 | removing the selected items one by one, each at its current row, leaves exactly the unselected folders in order; with no selection nothing changes and nothing is handed on |
| SelectedFolders.RemovePartitions | SelectedFolders.py:46-51 | the folders kept and the folders removed together are the old list, each as often as it occurred |
| SelectedFolders.SaveFileName | SelectedFolders.py:55-56 | the file name ends in ".fecf": unchanged if it did, otherwise with ".fecf" appended |
| SelectedFolders.SaveFileNameIdempotent | SelectedFolders.py:55-56 | applying the rule to its own result changes nothing |
| SelectedFolders.SaveFileNameExample | SelectedFolders.py:55-56 | "x.txt" becomes "x.txt.fecf" |
| SelectedFolders.SaveFolders | SelectedFolders.py:52-59 | a save happens exactly when a file was chosen; it writes to the chosen name under the ".fecf" rule the list, one folder per line |
| SelectedFolders.SerializeLines | SelectedFolders.py:57-59 | `readlines` splits the saved text into one line per folder, each followed by its newline, when no folder holds a newline |
| SelectedFolders.Universal | SelectedFolders.py:63 | reading in text mode leaves no carriage return |
| SelectedFolders.UniversalEndings | SelectedFolders.py:63 | "\r\n" and a lone "\r" each read as one "\n", and other characters are kept |
| SelectedFolders.UniversalAppend | SelectedFolders.py:63 | text cut anywhere except inside a "\r\n" pair reads as the two pieces read one after the other |
| SelectedFolders.UniversalPlain | SelectedFolders.py:63 | text without carriage returns is read unchanged |
| SelectedFolders.ParseFolders | SelectedFolders.py:63-64 | one folder per line of the text read in text mode, each that line's window: no whitespace at its ends, only whitespace around it |
| SelectedFolders.NewFolders | SelectedFolders.py:65-70 | the merge loop collects the lines not yet listed, each at its first occurrence, in file order |
| SelectedFolders.LoadFolders | SelectedFolders.py:60-72 | a load keeps the list as a prefix, appends the new folders, and hands the list on; a cancelled dialog changes nothing |
| SelectedFolders.AppendedFresh | SelectedFolders.py:64-71 | the appended folders have no repeats, and a folder is appended exactly when a line holds it and the list does not |
| SelectedFolders.LoadTwiceAppendsNothing | SelectedFolders.py:64-71 | loading the same file a second time appends nothing |
| SelectedFolders.AppendedAllNew | SelectedFolders.py:67-70 | distinct lines that are all new are appended as they are |
| SelectedFolders.ParseSerialized | SelectedFolders.py:57-64 | parsing a saved list gives the list back when no folder has whitespace at either end or a line break inside |
| SelectedFolders.SaveLoadRoundTrip | SelectedFolders.py:52-72 | saving a list without repeats and loading it into an empty panel restores the list when no folder has whitespace at either end or a line break (newline or carriage return) inside |

## Left out

- Thumbnail generation (`create_thumbnail`: PIL, resampling, numpy, `QFileIconProvider`) is foreign libraries and image data. A row's icon is not modelled.
- Painting and size hints (`paint`, `sizeHint`, `sizeHintForIndex`) are drawing calls. Only `wrap_text` is kept, with the font measure as a parameter.
- `startDrag`, `QDrag`, `QMimeData`, `QUrl.fromLocalFile`, `mimeTypes`: the export is modelled as the list of paths, before URL encoding.
- A drop from another source goes to the framework's default handler, which is not modelled.
- DropTarget.ResolveDrop: requires a non-empty model. A drop from the view itself starts from a drag of a selected row, so an empty model never reaches this code.
- DropTarget.DropReorder: requires one rectangle per row and a non-empty model, as `visualRect` and `rowCount()` give in the source.
- Float arithmetic: `iconsSpace/2` becomes doubled integer coordinates, and Euclidean distances become squared distances. Both order the same way on integer coordinates.
- `os.path.isfile`, the folder and file dialogs, and opening, reading and writing files are parameters or left to the caller. `SaveFolders` returns the file name and the text to write, as it is written on POSIX, where text mode does not translate newlines on writing.
- PyStr.Lower: lower-cases ASCII letters only. The seven image extensions are ASCII, so membership is decided exactly. Other characters are left as they are, unlike Python's full Unicode `lower`.
- PyPath: POSIX `posixpath` semantics only (`/` as separator); Windows `ntpath` is not modelled.
- Reordering: requires pairwise distinct rows and a valid target row, as Qt items compared with `is` and `itemFromIndex` of a resolved target are.
- SelectedFolders.RemoveFolders: requires each selected row to exist. A selected item is identified by its row before the removal. Each removal is Qt's `takeItem(row(item))`, which skips an item already taken.
- `mainFile.py` (the window shell, the `os.listdir` scan of the chosen folders and signal wiring) is not part of this model.
- Text encoding: the file content is taken as already decoded characters.

=== FILE: drop.dfy ===
/**
 * Drop-target resolution of the icon grid (`ThumbnailListView.dropEvent` for drags that
 * start in the same view, with `get_icon_coordinates`).
 *
 * Coordinates are Qt's integer pixel coordinates. The source compares against
 * `spacing / 2` (a float) and against Euclidean distances (`** 0.5`); both are replaced
 * here by comparisons that order the same way on integers: doubled coordinates for the
 * half spacing and squared distances for the distances.
 */
module DropTarget {
  import opened Subseq
  import opened Reordering

  /** A `QRect` as `visualRect` returns it: `right` and `bottom` are inclusive. */
  datatype Rect = Rect(left: int, top: int, right: int, bottom: int)

  datatype Point = Point(x: int, y: int)

  /** The resolved drop: the target row and whether to put the block after it. */
  datatype Target = Target(row: int, after: bool)

  /** C++ integer halving, which truncates toward zero. */
  function HalfTowardZero(v: int): (h: int)
    ensures v >= 0 ==> 2 * h == v || 2 * h == v - 1
    ensures v < 0 ==> 2 * h == v || 2 * h == v + 1
  {
    if v >= 0 then v / 2 else -((-v) / 2)
  }

  /**
   * `QRect::center()`: the midpoint of the inclusive corners, halved toward zero. It lies
   * inside the rectangle whenever the rectangle is not empty.
   */
  function Center(r: Rect): (c: Point)
    ensures r.left + r.right >= 0 ==> 2 * c.x == r.left + r.right || 2 * c.x == r.left + r.right - 1
    ensures r.left + r.right < 0 ==> 2 * c.x == r.left + r.right || 2 * c.x == r.left + r.right + 1
    ensures r.top + r.bottom >= 0 ==> 2 * c.y == r.top + r.bottom || 2 * c.y == r.top + r.bottom - 1
    ensures r.top + r.bottom < 0 ==> 2 * c.y == r.top + r.bottom || 2 * c.y == r.top + r.bottom + 1
    ensures r.left <= r.right ==> r.left <= c.x <= r.right
    ensures r.top <= r.bottom ==> r.top <= c.y <= r.bottom
  {
    Point(HalfTowardZero(r.left + r.right), HalfTowardZero(r.top + r.bottom))
  }

  /** `get_icon_coordinates`: the centre of every row's rectangle, by row. */
  function IconCoordinates(rects: seq<Rect>): (cs: seq<Point>)
    ensures |cs| == |rects|
    ensures forall i :: 0 <= i < |rects| ==> cs[i] == Center(rects[i])
  {
    seq(|rects|, i requires 0 <= i < |rects| => Center(rects[i]))
  }

  /** The squared Euclidean distance between two points. */
  function SqDist(a: Point, b: Point): int
  {
    (a.x - b.x) * (a.x - b.x) + (a.y - b.y) * (a.y - b.y)
  }

  /**
   * The nearest-centre loop: rows are visited in order and a row replaces the current
   * best only when strictly nearer, so the first row at the minimum distance wins.
   */
  function Nearest(cs: seq<Point>, p: Point): (k: int)
    requires |cs| > 0
    ensures 0 <= k < |cs|
    ensures forall j :: 0 <= j < |cs| ==> SqDist(cs[k], p) <= SqDist(cs[j], p)
    ensures forall j :: 0 <= j < k ==> SqDist(cs[j], p) > SqDist(cs[k], p)
    decreases |cs|
  {
    if |cs| == 1 then 0
    else
      var k := Nearest(cs[..|cs| - 1], p);
      if SqDist(cs[|cs| - 1], p) < SqDist(cs[k], p) then |cs| - 1 else k
  }

  /** "below all files": lower than the last row's bottom edge plus half the spacing. */
  predicate BelowAll(last: Rect, spacing: int, p: Point)
  {
    2 * p.y > 2 * last.bottom + spacing
  }

  /** "right of last row": within the last row's band and right of its right edge. */
  predicate RightOfLastRow(last: Rect, spacing: int, p: Point)
  {
    2 * p.y > 2 * last.top - spacing && p.x > last.right
  }

  /**
   * Maps a drop point to the target row and side. Below everything, or right of the last
   * item in its band, the drop goes after the last row; anywhere else it goes to the row
   * whose centre is nearest (first such row), after it when the point is right of that
   * centre.
   */
  function ResolveDrop(rects: seq<Rect>, spacing: int, p: Point): (d: Target)
    requires |rects| > 0
    ensures 0 <= d.row < |rects|
    ensures BelowAll(rects[|rects| - 1], spacing, p) ==> d == Target(|rects| - 1, true)
    ensures !BelowAll(rects[|rects| - 1], spacing, p) && RightOfLastRow(rects[|rects| - 1], spacing, p)
        ==> d == Target(|rects| - 1, true)
    ensures !BelowAll(rects[|rects| - 1], spacing, p) && !RightOfLastRow(rects[|rects| - 1], spacing, p)
        ==> var cs := IconCoordinates(rects);
          && (forall j :: 0 <= j < |rects| ==> SqDist(cs[d.row], p) <= SqDist(cs[j], p))
          && (forall j :: 0 <= j < d.row ==> SqDist(cs[j], p) > SqDist(cs[d.row], p))
          && d.after == (p.x > cs[d.row].x)
  {
    var last := rects[|rects| - 1];
    if BelowAll(last, spacing, p) || RightOfLastRow(last, spacing, p) then Target(|rects| - 1, true)
    else
      var cs := IconCoordinates(rects);
      var k := Nearest(cs, p);
      Target(k, p.x > cs[k].x)
  }

  /**
   * `dropEvent` for a drag from this view: resolve the target, then reorder. The rows are
   * left a permutation of themselves with the dragged block spliced in at its slot.
   */
  function DropReorder<T(==)>(rows: seq<T>, sel: set<int>, rects: seq<Rect>, spacing: int, p: Point): (r: seq<T>)
    requires |rows| > 0 && |rects| == |rows| && Distinct(rows)
    ensures multiset(r) == multiset(rows)
    ensures var d := ResolveDrop(rects, spacing, p);
      var u := Unmoved(rows, sel);
      var s := Slot(rows, sel, d.row, d.after);
      s <= |u| && r == u[..s] + Moved(rows, sel) + u[s..]
  {
    var d := ResolveDrop(rects, spacing, p);
    ReorderShape(rows, sel, d.row, d.after);
    ReorderPermutes(rows, sel, d.row, d.after);
    Reorder(rows, sel, d.row, d.after)
  }

  /**
   * A drop nearer to row `i`'s centre than to any other, outside the last row's bands,
   * resolves to row `i`: before it on the left of its centre, after it on the right.
   */
  lemma DropNearCentre(rects: seq<Rect>, spacing: int, p: Point, i: int)
    requires 0 <= i < |rects|
    requires !BelowAll(rects[|rects| - 1], spacing, p) && !RightOfLastRow(rects[|rects| - 1], spacing, p)
    requires forall j :: 0 <= j < |rects| && j != i ==> SqDist(Center(rects[i]), p) < SqDist(Center(rects[j]), p)
    ensures ResolveDrop(rects, spacing, p) == Target(i, p.x > Center(rects[i]).x)
  {
  }
}

=== FILE: pypath.dfy ===
/**
 * The POSIX `os.path` operations the file browser uses on file paths, with the
 * semantics of Python's `posixpath` (separator `/`, extension separator `.`):
 * `splitext`, `basename`, `dirname` and `join`; and the `is_image` classifier
 * built on `splitext`.
 */
module PyPath {
  import opened PyStr

  /** The first index in `[lo, hi)` holding something other than a dot, or `hi`. */
  function FirstNonDot(p: string, lo: int, hi: int): (k: int)
    requires 0 <= lo <= hi <= |p|
    ensures lo <= k <= hi
    ensures k < hi ==> p[k] != '.'
    ensures forall j :: lo <= j < k ==> p[j] == '.'
    decreases hi - lo
  {
    if lo == hi || p[lo] != '.' then lo else FirstNonDot(p, lo + 1, hi)
  }

  /**
   * `os.path.splitext(p)`: the extension is the text from the last dot of the final
   * path component on, provided that dot is not part of the component's leading dots.
   * Otherwise the extension is empty.
   */
  function SplitExt(p: string): (r: (string, string))
    ensures r.0 + r.1 == p
    ensures |r.1| > 0 ==> r.1[0] == '.' && '.' !in r.1[1..] && '/' !in r.1
  {
    var sep := RFind(p, '/');
    var dot := RFind(p, '.');
    if dot > sep && FirstNonDot(p, sep + 1, dot) < dot then (p[..dot], p[dot..]) else (p, "")
  }

  /**
   * `d` is where a file extension starts, stated without `rfind`: a dot with no dot
   * and no separator after it, preceded in its path component by a non-dot character.
   */
  ghost predicate ExtensionAt(p: string, d: int)
  {
    && 0 <= d < |p| && p[d] == '.'
    && (forall j :: d < j < |p| ==> p[j] != '.' && p[j] != '/')
    && (exists k :: 0 <= k < d && p[k] != '.' && p[k] != '/' && forall j :: k < j < d ==> p[j] != '/')
  }

  /** `splitext` splits at an extension start when there is one, and only then. */
  lemma SplitExtFinds(p: string)
    ensures SplitExt(p).1 != "" <==> exists d :: ExtensionAt(p, d)
    ensures forall d :: ExtensionAt(p, d) ==> SplitExt(p) == (p[..d], p[d..])
  {
    var sep := RFind(p, '/');
    var dot := RFind(p, '.');
    forall d | ExtensionAt(p, d)
      ensures SplitExt(p) == (p[..d], p[d..])
    {
      assert dot == d;
      var k :| 0 <= k < d && p[k] != '.' && p[k] != '/' && forall j :: k < j < d ==> p[j] != '/';
      assert sep < k;
      assert FirstNonDot(p, sep + 1, dot) <= k;
    }
    if SplitExt(p).1 != "" {
      var k := FirstNonDot(p, sep + 1, dot);
      assert p[k] != '/';
      assert ExtensionAt(p, dot);
    }
  }

  const ImageExtensions: seq<string> := [".jpg", ".jpeg", ".png", ".bmp", ".gif", ".tiff", ".ico"]

  /**
   * `is_image`: the extension `splitext` finds, lower-cased, is one of the image
   * extensions; that is, the path has an extension whose lower-case form is listed.
   */
  predicate IsImage(p: string): (b: bool)
    ensures b <==> exists d :: ExtensionAt(p, d) && Lower(p[d..]) in ImageExtensions
  {
    SplitExtFinds(p);
    assert Lower("") == "";
    Lower(SplitExt(p).1) in ImageExtensions
  }

  /** `rfind` finds an occurrence with no other occurrence after it. */
  lemma RFindAt(s: string, c: char, k: int)
    requires 0 <= k < |s| && s[k] == c && c !in s[k + 1..]
    ensures RFind(s, c) == k
  {
  }

  /** An upper-case extension counts. */
  lemma UpperCaseIsImage()
    ensures IsImage("A.PNG")
  {
    assert RFind("A.PNG", '/') == -1;
    RFindAt("A.PNG", '.', 1);
    assert SplitExt("A.PNG").1 == ".PNG";
    assert Lower(".PNG") == ".png";
  }

  /** Only the last extension counts. */
  lemma LastExtensionOnly()
    ensures !IsImage("a.png.txt")
  {
    assert RFind("a.png.txt", '/') == -1;
    RFindAt("a.png.txt", '.', 5);
    assert SplitExt("a.png.txt").1 == ".txt";
    assert Lower(".txt")[1] == 't';
  }

  /** A name made of dots and an extension-like word has no extension. */
  lemma DotFileIsNotImage()
    ensures !IsImage(".png")
    ensures !IsImage("x")
  {
    RFindAt(".png", '.', 0);
    assert SplitExt(".png").1 == "";
    assert SplitExt("x").1 == "";
    assert Lower("") == "";
  }

  /** `os.path.basename(p)`: the text after the last separator. */
  function Basename(p: string): string
  {
    p[RFind(p, '/') + 1..]
  }

  /** The base name is the separator-free end of the path, after a separator or the whole path. */
  lemma BasenameShape(p: string)
    ensures var r := Basename(p);
      && |r| <= |p| && r == p[|p| - |r|..]
      && '/' !in r
      && (|r| == |p| || p[|p| - |r| - 1] == '/')
  {
  }

  /** `s.rstrip('/')`. */
  function RStripSlash(s: string): (r: string)
    ensures |r| <= |s| && r == s[..|r|]
    ensures forall i :: |r| <= i < |s| ==> s[i] == '/'
    ensures |r| > 0 ==> r[|r| - 1] != '/'
    decreases |s|
  {
    if |s| > 0 && s[|s| - 1] == '/' then RStripSlash(s[..|s| - 1]) else s
  }

  predicate AllSlashes(s: string)
  {
    forall i :: 0 <= i < |s| ==> s[i] == '/'
  }

  /**
   * `os.path.dirname(p)`: everything up to the last separator, without its trailing
   * separators unless it consists of separators only.
   */
  function Dirname(p: string): string
  {
    var head := p[..RFind(p, '/') + 1];
    if |head| > 0 && !AllSlashes(head) then RStripSlash(head) else head
  }

  /**
   * The directory is a prefix of the path that ends before the base name, followed in
   * the path only by separators, and ends in a separator only if it is all separators.
   */
  lemma DirnameShape(p: string)
    ensures var r := Dirname(p);
      var i := RFind(p, '/') + 1;
      && |r| <= i && r == p[..|r|]
      && (|r| > 0 && r[|r| - 1] == '/' ==> AllSlashes(r))
      && (forall j :: |r| <= j < i ==> p[j] == '/')
      && (AllSlashes(p[..i]) ==> r == p[..i])
      && (!AllSlashes(p[..i]) ==> |r| > 0 && r[|r| - 1] != '/')
  {
  }

  /** `os.path.join(a, b)` for two parts. */
  function Join(a: string, b: string): string
  {
    if |b| > 0 && b[0] == '/' then b
    else if |a| == 0 || a[|a| - 1] == '/' then a + b
    else a + "/" + b
  }

  /**
   * An absolute `b` replaces `a`; otherwise `b` follows `a`, with one separator between
   * them unless `a` is empty or already ends in one.
   */
  lemma JoinShape(a: string, b: string)
    ensures var r := Join(a, b);
      && (|b| > 0 && b[0] == '/' ==> r == b)
      && (!(|b| > 0 && b[0] == '/') ==>
        && |a| + |b| <= |r| && r[..|a|] == a && r[|r| - |b|..] == b
        && (|r| > |a| + |b| <==> |a| > 0 && a[|a| - 1] != '/')
        && (|r| > |a| + |b| ==> |r| == |a| + |b| + 1 && r[|a|] == '/'))
  {
  }

  /**
   * The last separator of `p` is one of a run of two or more that follows some other
   * character: `dirname` drops the whole run and `join` puts only one back.
   */
  predicate CollapsedSeparator(p: string)
  {
    var i := RFind(p, '/') + 1;
    i >= 2 && p[i - 2] == '/' && !AllSlashes(p[..i])
  }

  /** Rejoining a path's directory and base name gives the path back unless a separator run collapses. */
  lemma JoinRoundTrip(p: string)
    ensures Join(Dirname(p), Basename(p)) == p <==> !CollapsedSeparator(p)
  {
    var i := RFind(p, '/') + 1;
    var head := p[..i];
    var tail := p[i..];
    assert p == head + tail;
    assert Basename(p) == tail;
    if i > 0 && !AllSlashes(head) {
      var d := RStripSlash(head);
      assert Dirname(p) == d;
      var k :| 0 <= k < i && head[k] != '/';
      assert |d| > k;
      assert Join(d, tail) == d + "/" + tail;
      if CollapsedSeparator(p) {
        assert |d| < i - 1;
        assert |d + "/" + tail| < |p|;
      } else {
        assert |d| == i - 1;
        assert d + "/" == head;
      }
    }
  }

  /** A doubled separator before the base name is not restored. */
  lemma JoinCollapses()
    ensures Join(Dirname("a//b"), Basename("a//b")) == "a/b"
  {
    assert RFind("a//b", '/') == 2;
    assert Basename("a//b") == "b";
    assert "a//b"[..3] == "a//";
    assert "a//"[0] != '/';
    assert RStripSlash("a//") == "a";
  }
}

=== FILE: pystr.dfy ===
/**
 * The Python string operations the file browser relies on, with Python's semantics:
 * `str.rfind`, `str.endswith`, `str.lower` (on ASCII letters), `str.isspace`,
 * `str.strip()` and the line splitting of `file.readlines()`.
 */
module PyStr {

  /** `s.rfind(c)`: the last index of `c` in `s`, or -1 when there is none. */
  function RFind(s: string, c: char): (r: int)
    ensures -1 <= r < |s|
    ensures r >= 0 ==> s[r] == c
    ensures forall j :: r < j < |s| ==> s[j] != c
    decreases |s|
  {
    if |s| == 0 then -1 else if s[|s| - 1] == c then |s| - 1 else RFind(s[..|s| - 1], c)
  }

  predicate EndsWith(s: string, suffix: string)
  {
    |suffix| <= |s| && s[|s| - |suffix|..] == suffix
  }

  /** `str.lower` on one character, for the ASCII letters. */
  function LowerChar(c: char): char
  {
    if 'A' <= c <= 'Z' then (c as int + 32) as char else c
  }

  /** `s.lower()` on ASCII text: each capital becomes its small letter, nothing else changes. */
  function Lower(s: string): (r: string)
    ensures |r| == |s|
    ensures forall i :: 0 <= i < |r| ==> !('A' <= r[i] <= 'Z')
    ensures forall i :: 0 <= i < |s| && 'A' <= s[i] <= 'Z' ==> r[i] as int == s[i] as int + 32
    ensures forall i :: 0 <= i < |s| && !('A' <= s[i] <= 'Z') ==> r[i] == s[i]
  {
    seq(|s|, i requires 0 <= i < |s| => LowerChar(s[i]))
  }

  /** Lower-casing twice is lower-casing once. */
  lemma LowerIdempotent(s: string)
    ensures Lower(Lower(s)) == Lower(s)
  {
  }

  /** `str.isspace` on one character: the characters Python treats as whitespace. */
  predicate IsSpace(c: char)
  {
    || c == ' ' || '\t' <= c <= '\r' || '\U{1c}' <= c <= '\U{1f}' || c == '\U{85}' || c == '\U{a0}'
    || c == '\U{1680}' || '\U{2000}' <= c <= '\U{200a}' || c == '\U{2028}' || c == '\U{2029}'
    || c == '\U{202f}' || c == '\U{205f}' || c == '\U{3000}'
  }

  /** `s.lstrip()`: drops the leading whitespace. */
  function LStrip(s: string): (r: string)
    ensures |r| <= |s| && r == s[|s| - |r|..]
    ensures forall i :: 0 <= i < |s| - |r| ==> IsSpace(s[i])
    ensures |r| > 0 ==> !IsSpace(r[0])
    decreases |s|
  {
    if |s| > 0 && IsSpace(s[0]) then LStrip(s[1..]) else s
  }

  /** `s.rstrip()`: drops the trailing whitespace. */
  function RStrip(s: string): (r: string)
    ensures |r| <= |s| && r == s[..|r|]
    ensures forall i :: |r| <= i < |s| ==> IsSpace(s[i])
    ensures |r| > 0 ==> !IsSpace(r[|r| - 1])
    decreases |s|
  {
    if |s| > 0 && IsSpace(s[|s| - 1]) then RStrip(s[..|s| - 1]) else s
  }

  /** A string with no whitespace at either end, the strings `Strip` returns unchanged. */
  predicate Trimmed(s: string)
  {
    |s| == 0 || (!IsSpace(s[0]) && !IsSpace(s[|s| - 1]))
  }

  /**
   * `f` is the part of `s` from index `a` on that has no whitespace at either end, with
   * only whitespace outside it: what `strip` keeps.
   */
  predicate Window(s: string, f: string, a: int)
  {
    && 0 <= a && a + |f| <= |s| && f == s[a..a + |f|]
    && Trimmed(f)
    && (forall j :: 0 <= j < a ==> IsSpace(s[j]))
    && (forall j :: a + |f| <= j < |s| ==> IsSpace(s[j]))
  }

  /**
   * `str.strip()`: drops the leading and trailing whitespace. What it keeps is the
   * window of `s` starting at `|s| - |LStrip(s)|`, and everything outside it is whitespace.
   */
  function Strip(s: string): (r: string)
    ensures Window(s, r, |s| - |LStrip(s)|)
  {
    var l := LStrip(s);
    var r := RStrip(l);
    assert Window(s, r, |s| - |l|) by {
      StripWindow(s, l, r);
    }
    r
  }

  /** `fs` holds one entry per line: that line's window, from its first non-whitespace character. */
  predicate LineWindows(lines: seq<string>, fs: seq<string>)
  {
    && |fs| == |lines|
    && forall i :: 0 <= i < |fs| ==> Window(lines[i], fs[i], |lines[i]| - |LStrip(lines[i])|)
  }

  /** `[line.strip() for line in lines]`: each line's window, one per line. */
  function StripEach(lines: seq<string>): (fs: seq<string>)
    ensures LineWindows(lines, fs)
  {
    seq(|lines|, i requires 0 <= i < |lines| => Strip(lines[i]))
  }

  /** The window is unique: any text `Window` describes is what `strip` returns. */
  lemma WindowUnique(s: string, f: string, a: int)
    requires Window(s, f, a)
    ensures f == Strip(s)
  {
    var g := Strip(s);
    var b := |s| - |LStrip(s)|;
    if |f| > 0 && |g| > 0 {
      assert f[0] == s[a] && g[0] == s[b];
      assert a == b;
      assert f[|f| - 1] == s[a + |f| - 1] && g[|g| - 1] == s[b + |g| - 1];
      assert |f| == |g|;
    }
  }

  /** Stripping the front of `s` to `l`, then the back of `l` to `r`, leaves a window of `s`. */
  lemma StripWindow(s: string, l: string, r: string)
    requires |l| <= |s| && l == s[|s| - |l|..]
    requires forall i :: 0 <= i < |s| - |l| ==> IsSpace(s[i])
    requires |l| > 0 ==> !IsSpace(l[0])
    requires |r| <= |l| && r == l[..|r|]
    requires forall i :: |r| <= i < |l| ==> IsSpace(l[i])
    requires |r| > 0 ==> !IsSpace(r[|r| - 1])
    ensures Window(s, r, |s| - |l|)
  {
    var a := |s| - |l|;
    forall j | a + |r| <= j < |s|
      ensures IsSpace(s[j])
    {
      assert s[j] == l[j - a];
    }
    assert r == s[a..a + |r|];
  }

  /** A trimmed text followed by a newline strips back to the text. */
  lemma StripLine(s: string)
    requires Trimmed(s)
    ensures Strip(s + "\n") == s
  {
    var t := s + "\n";
    if |s| == 0 {
      assert LStrip(t) == LStrip(t[1..]);
      assert t[1..] == [];
    } else {
      assert LStrip(t) == t;
      assert RStrip(t) == RStrip(t[..|t| - 1]);
      assert t[..|t| - 1] == s;
    }
  }

  /**
   * `file.readlines()` on the text read from a file: the text is cut after every
   * newline, the last line keeping whatever follows the final newline, if anything.
   */
  function ReadLines(text: string): (lines: seq<string>)
    ensures Concat(lines) == text
    ensures forall i :: 0 <= i < |lines| ==> |lines[i]| > 0
    ensures forall i :: 0 <= i < |lines| - 1 ==> EndsWith(lines[i], "\n")
    ensures forall i, j :: 0 <= i < |lines| && 0 <= j < |lines[i]| - 1 ==> lines[i][j] != '\n'
    decreases |text|
  {
    if |text| == 0 then []
    else
      var k := FirstNewline(text, 0);
      if k == |text| then [text]
      else
        var rest := ReadLines(text[k + 1..]);
        LineBeforeRest(text, k, rest);
        [text[..k + 1]] + rest
  }

  /** The text up to its first newline, put before the lines of what follows, splits the text. */
  lemma LineBeforeRest(text: string, k: int, rest: seq<string>)
    requires 0 <= k < |text| && text[k] == '\n'
    requires forall j :: 0 <= j < k ==> text[j] != '\n'
    requires Concat(rest) == text[k + 1..]
    requires forall i :: 0 <= i < |rest| ==> |rest[i]| > 0
    requires forall i :: 0 <= i < |rest| - 1 ==> EndsWith(rest[i], "\n")
    requires forall i, j :: 0 <= i < |rest| && 0 <= j < |rest[i]| - 1 ==> rest[i][j] != '\n'
    ensures var lines := [text[..k + 1]] + rest;
      && Concat(lines) == text
      && (forall i :: 0 <= i < |lines| ==> |lines[i]| > 0)
      && (forall i :: 0 <= i < |lines| - 1 ==> EndsWith(lines[i], "\n"))
      && (forall i, j :: 0 <= i < |lines| && 0 <= j < |lines[i]| - 1 ==> lines[i][j] != '\n')
  {
    var lines := [text[..k + 1]] + rest;
    assert lines[1..] == rest;
    assert text == text[..k + 1] + text[k + 1..];
    forall i | 0 <= i < |lines| - 1
      ensures EndsWith(lines[i], "\n")
    {
      if i > 0 {
        assert lines[i] == rest[i - 1];
      }
    }
  }

  /** The index of the first newline at or after `from`, or `|text|`. */
  function FirstNewline(text: string, from: int): (k: int)
    requires 0 <= from <= |text|
    ensures from <= k <= |text|
    ensures k < |text| ==> text[k] == '\n'
    ensures forall j :: from <= j < k ==> text[j] != '\n'
    decreases |text| - from
  {
    if from == |text| || text[from] == '\n' then from else FirstNewline(text, from + 1)
  }

  /** The concatenation of a sequence of strings. */
  function Concat(parts: seq<string>): string
  {
    if |parts| == 0 then "" else parts[0] + Concat(parts[1..])
  }

  /** A line as `readlines` yields it from the middle of a text: one newline, at its end. */
  predicate Line(s: string)
  {
    |s| > 0 && s[|s| - 1] == '\n' && '\n' !in s[..|s| - 1]
  }

  /** Text made by concatenating lines reads back as exactly those lines. */
  lemma {:induction false} ReadLinesOfLines(parts: seq<string>)
    requires forall i :: 0 <= i < |parts| ==> Line(parts[i])
    ensures ReadLines(Concat(parts)) == parts
    decreases |parts|
  {
    if |parts| > 0 {
      ReadLinesOfLines(parts[1..]);
      FirstNewlineOf(parts[0], Concat(parts[1..]));
      assert parts == [parts[0]] + parts[1..];
    }
  }

  /** The first newline of a newline-terminated, otherwise newline-free line is its last character. */
  lemma FirstNewlineOf(line: string, rest: string)
    requires Line(line)
    ensures FirstNewline(line + rest, 0) == |line| - 1
    ensures (line + rest)[..|line|] == line && (line + rest)[|line|..] == rest
  {
    var text := line + rest;
    var k := FirstNewline(text, 0);
    assert text[|line| - 1] == '\n';
  }
}

=== FILE: reorder.dfy ===
/**
 * Drag-reordering of the icon grid's rows (`ThumbnailListView.reorderTheTarget`).
 *
 * Rows are item identities; the source compares items with `is`, so the rows of one
 * model are pairwise distinct. The Qt model calls are modelled with Qt's own
 * behaviour for out-of-range rows (nothing happens), so that the proofs below show
 * that the algorithm never relies on it.
 */
module Reordering {
  import opened Subseq

  /** `QStandardItemModel.takeRow`: removes row `r` when it exists. */
  function TakeRow<T>(rows: seq<T>, r: int): (res: seq<T>)
    ensures 0 <= r < |rows| ==> |res| == |rows| - 1
  {
    if 0 <= r < |rows| then rows[..r] + rows[r + 1..] else rows
  }

  /** `QStandardItemModel.insertRow`: inserts `x` at row `r` when `0 <= r <= rowCount()`. */
  function InsertRow<T>(rows: seq<T>, r: int, x: T): seq<T>
  {
    if 0 <= r <= |rows| then rows[..r] + [x] + rows[r..] else rows
  }

  /** `indexFromItem(x).row()`: the row holding `x`, or -1 when `x` is not in the model. */
  function RowOf<T(==)>(rows: seq<T>, x: T): (r: int)
    ensures -1 <= r < |rows|
    ensures r >= 0 ==> rows[r] == x && x !in rows[..r]
    ensures r == -1 ==> x !in rows
  {
    if |rows| == 0 then -1
    else if rows[0] == x then 0
    else
      var k := RowOf(rows[1..], x);
      if k == -1 then -1
      else
        assert rows[..k + 1] == [rows[0]] + rows[1..][..k];
        k + 1
  }

  /** Taking an existing row closes the gap; taking a missing one changes nothing. */
  lemma TakeRowShape<T>(rows: seq<T>, r: int)
    ensures !(0 <= r < |rows|) ==> TakeRow(rows, r) == rows
    ensures 0 <= r < |rows| ==>
      && |TakeRow(rows, r)| == |rows| - 1
      && (forall i :: 0 <= i < r ==> TakeRow(rows, r)[i] == rows[i])
      && (forall i :: r <= i < |rows| - 1 ==> TakeRow(rows, r)[i] == rows[i + 1])
  {
  }

  /** Inserting at `0..rowCount()` opens a gap there; any other row changes nothing. */
  lemma InsertRowShape<T>(rows: seq<T>, r: int, x: T)
    ensures !(0 <= r <= |rows|) ==> InsertRow(rows, r, x) == rows
    ensures 0 <= r <= |rows| ==>
      && |InsertRow(rows, r, x)| == |rows| + 1
      && InsertRow(rows, r, x)[r] == x
      && (forall i :: 0 <= i < r ==> InsertRow(rows, r, x)[i] == rows[i])
      && (forall i :: r < i <= |rows| ==> InsertRow(rows, r, x)[i] == rows[i - 1])
  {
  }

  /** Taking out the row just inserted restores the rows. */
  lemma TakeInsertedRow<T>(rows: seq<T>, r: int, x: T)
    requires 0 <= r <= |rows|
    ensures TakeRow(InsertRow(rows, r, x), r) == rows
  {
    assert (rows[..r] + [x] + rows[r..])[..r] == rows[..r];
    assert (rows[..r] + [x] + rows[r..])[r + 1..] == rows[r..];
    assert rows == rows[..r] + rows[r..];
  }

  /** The insertion loop `insertRow(new_target_row + i, item)` over the dragged items. */
  function InsertAll<T>(rows: seq<T>, at: int, items: seq<T>): seq<T>
    decreases |items|
  {
    if |items| == 0 then rows else InsertAll(InsertRow(rows, at, items[0]), at + 1, items[1..])
  }

  /** The result of the removal loop: the remaining rows and `targetInSelected_indexes`. */
  datatype Taken<T> = Taken(rows: seq<T>, targetSeen: bool)

  /**
   * The removal loop: walks the (row, item) pairs from the last one back, taking the
   * row of every item that is not the target and noting when the target is met.
   */
  function TakeSelected<T(==)>(rows: seq<T>, picked: seq<(int, T)>, target: T): Taken<T>
    decreases |picked|
  {
    if |picked| == 0 then Taken(rows, false)
    else
      var row := picked[|picked| - 1].0;
      var item := picked[|picked| - 1].1;
      var rest := TakeSelected(if item != target then TakeRow(rows, row) else rows, picked[..|picked| - 1], target);
      if item != target then rest else Taken(rest.rows, true)
  }

  /**
   * `reorderTheTarget(target_index, event, putItAfter)` on the rows `rows` with the
   * selected rows `sel`: `t` is the target's row. The selected (row, item) pairs are
   * sorted by row, the removal loop runs, and then the dragged items are re-inserted.
   */
  function Reorder<T(==)>(rows: seq<T>, sel: set<int>, t: int, putItAfter: bool): seq<T>
    requires 0 <= t < |rows|
  {
    var picked := Picked(rows, sel);
    Reinsert(TakeSelected(rows, picked, rows[t]), rows[t], putItAfter, Items(picked))
  }

  /**
   * The second half of `reorderTheTarget`: re-find the target, decide whether to put the
   * block after it (not when the dragged target is now the last row), take the target
   * out if it was dragged, and insert the dragged items one by one.
   */
  function Reinsert<T(==)>(taken: Taken<T>, target: T, putItAfter: bool, items: seq<T>): seq<T>
  {
    var idx := RowOf(taken.rows, target);
    var lastIsTarget := |taken.rows| > 0 && taken.rows[|taken.rows| - 1] == target;
    var after := if putItAfter && !(taken.targetSeen && lastIsTarget) then 1 else 0;
    var newRow := idx + after;
    var remaining := if taken.targetSeen then TakeRow(taken.rows, idx) else taken.rows;
    InsertAll(remaining, newRow, items)
  }

  /** `selected_indexes` after the sort: the selected (row, item) pairs in ascending row order. */
  function Picked<T>(rows: seq<T>, sel: set<int>): seq<(int, T)>
  {
    Pick(Enumerate(rows), sel, 0, |rows|)
  }

  /** The unselected rows before row `t`. */
  function Before<T>(rows: seq<T>, sel: set<int>, t: int): seq<T>
    requires 0 <= t < |rows|
  {
    Pick(rows, Unselected(sel, |rows|), 0, t)
  }

  /** The unselected rows after row `t`. */
  function Behind<T>(rows: seq<T>, sel: set<int>, t: int): seq<T>
    requires 0 <= t < |rows|
  {
    Pick(rows, Unselected(sel, |rows|), t + 1, |rows|)
  }

  /** The rows that are not selected, in their original order. */
  function Unmoved<T>(rows: seq<T>, sel: set<int>): (u: seq<T>)
  {
    Pick(rows, Unselected(sel, |rows|), 0, |rows|)
  }

  /** The selected rows, in ascending original-row order. */
  function Moved<T>(rows: seq<T>, sel: set<int>): (m: seq<T>)
  {
    Pick(rows, sel, 0, |rows|)
  }

  /**
   * Where the dragged block lands among the unselected rows: after the unselected rows
   * that precede the target, one further when dropping after it, except when the target
   * is itself dragged and no unselected row follows it.
   */
  function Slot<T>(rows: seq<T>, sel: set<int>, t: int, putItAfter: bool): nat
    requires 0 <= t < |rows|
  {
    var before := |Before(rows, sel, t)|;
    if putItAfter && !(t in sel && |Behind(rows, sel, t)| == 0) then before + 1 else before
  }

  lemma {:induction false} InsertAllInRange<T>(rows: seq<T>, at: int, items: seq<T>)
    requires 0 <= at <= |rows|
    ensures InsertAll(rows, at, items) == rows[..at] + items + rows[at..]
    decreases |items|
  {
    if |items| > 0 {
      var next := InsertRow(rows, at, items[0]);
      InsertAllInRange(next, at + 1, items[1..]);
      InsertStep(rows, at, items[0], items[1..], next);
      assert [items[0]] + items[1..] == items;
    }
  }

  /** Inserting the rest of a block right after its first item continues the block. */
  lemma InsertStep<T>(rows: seq<T>, at: int, x: T, rest: seq<T>, next: seq<T>)
    requires 0 <= at <= |rows| && next == rows[..at] + [x] + rows[at..]
    ensures next[..at + 1] + rest + next[at + 1..] == rows[..at] + ([x] + rest) + rows[at..]
  {
    assert next[..at + 1] == rows[..at] + [x];
    assert next[at + 1..] == rows[at..];
  }

  /** Inserting past the end is refused by the model, item after item. */
  lemma {:induction false} InsertAllPastEnd<T>(rows: seq<T>, at: int, items: seq<T>)
    requires at > |rows|
    ensures InsertAll(rows, at, items) == rows
    decreases |items|
  {
    if |items| > 0 {
      InsertAllPastEnd(rows, at + 1, items[1..]);
    }
  }

  /** The rows kept by the removal loop: the unselected ones and the target. */
  function Kept<T(==)>(rows: seq<T>, sel: set<int>, target: T): set<int>
  {
    set i | 0 <= i < |rows| && (i !in sel || rows[i] == target)
  }

  /** One step of the removal loop: the last pair is handled first. */
  lemma TakeSelectedLast<T>(cur: seq<T>, prior: seq<(int, T)>, row: int, item: T, target: T)
    ensures TakeSelected(cur, prior + [(row, item)], target).rows
         == TakeSelected(if item != target then TakeRow(cur, row) else cur, prior, target).rows
  {
    var picked := prior + [(row, item)];
    assert picked[..|picked| - 1] == prior;
  }

  /** The removal loop's view of the pairs below `h`: the pairs below `h - 1`, then row `h - 1` if selected. */
  lemma PickedStep<T>(rows: seq<T>, sel: set<int>, h: int)
    requires 0 < h <= |rows|
    ensures h - 1 !in sel ==> Pick(Enumerate(rows), sel, 0, h) == Pick(Enumerate(rows), sel, 0, h - 1)
    ensures h - 1 in sel ==> Pick(Enumerate(rows), sel, 0, h) == Pick(Enumerate(rows), sel, 0, h - 1) + [(h - 1, rows[h - 1])]
  {
    var E := Enumerate(rows);
    assert Pick(E, sel, 0, h) == Pick(E, sel, 0, h - 1) + (if h - 1 in sel then [E[h - 1]] else []);
    if h - 1 !in sel {
      assert Pick(E, sel, 0, h - 1) + [] == Pick(E, sel, 0, h - 1);
    }
  }

  /** Row `h - 1` is kept: the loop leaves it where it is. */
  lemma KeepsStepKept<T>(rows: seq<T>, sel: set<int>, target: T, cur: seq<T>, h: int)
    requires 0 < h <= |rows| && h <= |cur| && cur[h - 1] == rows[h - 1]
    requires h - 1 !in sel || rows[h - 1] == target
    requires TakeSelected(cur, Pick(Enumerate(rows), sel, 0, h - 1), target).rows
          == Pick(rows, Kept(rows, sel, target), 0, h - 1) + cur[h - 1..]
    ensures TakeSelected(cur, Pick(Enumerate(rows), sel, 0, h), target).rows
         == Pick(rows, Kept(rows, sel, target), 0, h) + cur[h..]
  {
    var K := Kept(rows, sel, target);
    var prior := Pick(Enumerate(rows), sel, 0, h - 1);
    assert Pick(rows, K, 0, h) == Pick(rows, K, 0, h - 1) + [rows[h - 1]] by {
      assert h - 1 in K;
    }
    assert TakeSelected(cur, Pick(Enumerate(rows), sel, 0, h), target).rows == TakeSelected(cur, prior, target).rows by {
      PickedStep(rows, sel, h);
      if h - 1 in sel {
        TakeSelectedLast(cur, prior, h - 1, rows[h - 1], target);
      }
    }
    assert cur[h - 1..] == [rows[h - 1]] + cur[h..];
  }

  /** Row `h - 1` is selected and is not the target: the loop takes it. */
  lemma KeepsStepTaken<T>(rows: seq<T>, sel: set<int>, target: T, cur: seq<T>, h: int)
    requires 0 < h <= |rows| && h <= |cur|
    requires h - 1 in sel && rows[h - 1] != target
    requires TakeSelected(TakeRow(cur, h - 1), Pick(Enumerate(rows), sel, 0, h - 1), target).rows
          == Pick(rows, Kept(rows, sel, target), 0, h - 1) + TakeRow(cur, h - 1)[h - 1..]
    ensures TakeSelected(cur, Pick(Enumerate(rows), sel, 0, h), target).rows
         == Pick(rows, Kept(rows, sel, target), 0, h) + cur[h..]
  {
    var K := Kept(rows, sel, target);
    var prior := Pick(Enumerate(rows), sel, 0, h - 1);
    assert h - 1 !in K;
    assert Pick(rows, K, 0, h) == Pick(rows, K, 0, h - 1);
    PickedStep(rows, sel, h);
    TakeSelectedLast(cur, prior, h - 1, rows[h - 1], target);
    assert TakeRow(cur, h - 1)[h - 1..] == cur[h..];
  }

  /**
   * After the removal loop has handled the selected rows below `h` (the pairs are
   * processed from the highest row down), the rows below `h` are exactly the kept ones.
   */
  lemma {:induction false} TakeSelectedKeeps<T>(rows: seq<T>, sel: set<int>, target: T, cur: seq<T>, h: int)
    requires 0 <= h <= |rows| && h <= |cur|
    requires cur[..h] == rows[..h]
    ensures TakeSelected(cur, Pick(Enumerate(rows), sel, 0, h), target).rows
         == Pick(rows, Kept(rows, sel, target), 0, h) + cur[h..]
    decreases h
  {
    if h > 0 {
      assert cur[..h - 1] == rows[..h - 1] by {
        assert cur[..h - 1] == cur[..h][..h - 1];
        assert rows[..h - 1] == rows[..h][..h - 1];
      }
      if h - 1 !in sel || rows[h - 1] == target {
        TakeSelectedKeeps(rows, sel, target, cur, h - 1);
        assert cur[h - 1] == cur[..h][h - 1];
        KeepsStepKept(rows, sel, target, cur, h);
      } else {
        var cur' := TakeRow(cur, h - 1);
        assert cur'[..h - 1] == cur[..h - 1];
        TakeSelectedKeeps(rows, sel, target, cur', h - 1);
        KeepsStepTaken(rows, sel, target, cur, h);
      }
    }
  }

  /** The removal loop notes the target exactly when it is among the pairs below `h`. */
  lemma {:induction false} TakeSelectedSees<T>(rows: seq<T>, sel: set<int>, target: T, cur: seq<T>, h: int)
    requires 0 <= h <= |rows|
    ensures TakeSelected(cur, Pick(Enumerate(rows), sel, 0, h), target).targetSeen
        <==> exists i :: 0 <= i < h && i in sel && rows[i] == target
    decreases h
  {
    if h > 0 {
      var prior := Pick(Enumerate(rows), sel, 0, h - 1);
      var cur' := if h - 1 in sel && rows[h - 1] != target then TakeRow(cur, h - 1) else cur;
      assert TakeSelected(cur, Pick(Enumerate(rows), sel, 0, h), target).targetSeen
         <==> TakeSelected(cur', prior, target).targetSeen || (h - 1 in sel && rows[h - 1] == target) by {
        PickedStep(rows, sel, h);
        if h - 1 in sel {
          TakeSelectedLastSeen(cur, prior, h - 1, rows[h - 1], target);
        }
      }
      TakeSelectedSees(rows, sel, target, cur', h - 1);
      SeenStep(rows, sel, target, h);
    }
  }

  /** The last pair notes the target if it is the target, and otherwise its row is taken first. */
  lemma TakeSelectedLastSeen<T>(cur: seq<T>, prior: seq<(int, T)>, row: int, item: T, target: T)
    ensures TakeSelected(cur, prior + [(row, item)], target).targetSeen
        <==> TakeSelected(if item != target then TakeRow(cur, row) else cur, prior, target).targetSeen || item == target
  {
    var picked := prior + [(row, item)];
    assert picked[..|picked| - 1] == prior;
  }

  /** A selected occurrence of the target below `h` is one below `h - 1` or at `h - 1`. */
  lemma SeenStep<T>(rows: seq<T>, sel: set<int>, target: T, h: int)
    requires 0 < h <= |rows|
    ensures (exists i :: 0 <= i < h && i in sel && rows[i] == target)
        <==> (exists i :: 0 <= i < h - 1 && i in sel && rows[i] == target) || (h - 1 in sel && rows[h - 1] == target)
  {
  }

  /** Splits the unselected rows around the target's row. */
  lemma UnmovedAround<T>(rows: seq<T>, sel: set<int>, t: int)
    requires 0 <= t < |rows|
    ensures var U := Unselected(sel, |rows|);
      Unmoved(rows, sel) == Pick(rows, U, 0, t) + Pick(rows, U, t, t + 1) + Pick(rows, U, t + 1, |rows|)
    ensures Pick(rows, Unselected(sel, |rows|), t, t + 1) == (if t in sel then [] else [rows[t]])
  {
    var U := Unselected(sel, |rows|);
    var n := |rows|;
    assert Pick(rows, U, 0, n) == Pick(rows, U, 0, t) + Pick(rows, U, t, n) by {
      PickSplit(rows, U, 0, t, n);
    }
    assert Pick(rows, U, t, n) == Pick(rows, U, t, t + 1) + Pick(rows, U, t + 1, n) by {
      PickSplit(rows, U, t, t + 1, n);
    }
    assert Pick(rows, U, t, t + 1) == (if t in sel then [] else [rows[t]]) by {
      assert Pick(rows, U, t, t) == [];
      assert t in U <==> t !in sel;
    }
  }

  /** The target is neither among the unselected rows before it nor among those after it. */
  lemma TargetNotAround<T>(rows: seq<T>, sel: set<int>, t: int)
    requires Distinct(rows) && 0 <= t < |rows|
    ensures rows[t] !in Before(rows, sel, t)
    ensures rows[t] !in Behind(rows, sel, t)
  {
    var Us := Unselected(sel, |rows|);
    if rows[t] in Pick(rows, Us, 0, t) {
      PickFrom(rows, Us, 0, t, rows[t]);
    }
    if rows[t] in Pick(rows, Us, t + 1, |rows|) {
      PickFrom(rows, Us, t + 1, |rows|, rows[t]);
    }
  }

  /** The removal loop notes the target exactly when the target is selected. */
  lemma RemovalSeesTarget<T>(rows: seq<T>, sel: set<int>, t: int)
    requires Distinct(rows) && 0 <= t < |rows|
    ensures TakeSelected(rows, Pick(Enumerate(rows), sel, 0, |rows|), rows[t]).targetSeen <==> t in sel
  {
    TakeSelectedSees(rows, sel, rows[t], rows, |rows|);
    if TakeSelected(rows, Pick(Enumerate(rows), sel, 0, |rows|), rows[t]).targetSeen {
      var i :| 0 <= i < |rows| && i in sel && rows[i] == rows[t];
      assert i == t;
    }
  }

  /** The removal loop leaves the target between the unselected rows before and after it. */
  lemma RemovalLeavesTarget<T>(rows: seq<T>, sel: set<int>, t: int)
    requires Distinct(rows) && 0 <= t < |rows|
    ensures TakeSelected(rows, Pick(Enumerate(rows), sel, 0, |rows|), rows[t]).rows
         == Pick(rows, Unselected(sel, |rows|), 0, t) + [rows[t]] + Pick(rows, Unselected(sel, |rows|), t + 1, |rows|)
  {
    var n := |rows|;
    var K := Kept(rows, sel, rows[t]);
    var Us := Unselected(sel, n);
    calc {
      TakeSelected(rows, Pick(Enumerate(rows), sel, 0, n), rows[t]).rows;
    == { TakeSelectedKeeps(rows, sel, rows[t], rows, n);
         assert rows[n..] == []; }
      Pick(rows, K, 0, n);
    == { PickSplit(rows, K, 0, t, n);
         PickSplit(rows, K, t, t + 1, n);
         assert t in K;
         assert Pick(rows, K, t, t) == []; }
      Pick(rows, K, 0, t) + [rows[t]] + Pick(rows, K, t + 1, n);
    == { KeptAroundTarget(rows, sel, t); }
      Pick(rows, Us, 0, t) + [rows[t]] + Pick(rows, Us, t + 1, n);
    }
  }

  /** Away from the target, the kept rows are the unselected ones. */
  lemma KeptAroundTarget<T>(rows: seq<T>, sel: set<int>, t: int)
    requires Distinct(rows) && 0 <= t < |rows|
    ensures Pick(rows, Kept(rows, sel, rows[t]), 0, t) == Pick(rows, Unselected(sel, |rows|), 0, t)
    ensures Pick(rows, Kept(rows, sel, rows[t]), t + 1, |rows|) == Pick(rows, Unselected(sel, |rows|), t + 1, |rows|)
  {
    var K := Kept(rows, sel, rows[t]);
    var Us := Unselected(sel, |rows|);
    assert forall i :: 0 <= i < |rows| && i != t ==> (i in K <==> i in Us);
    assert Pick(rows, K, 0, t) == Pick(rows, Us, 0, t) by {
      PickSame(rows, K, rows, Us, 0, t);
    }
    assert Pick(rows, K, t + 1, |rows|) == Pick(rows, Us, t + 1, |rows|) by {
      PickSame(rows, K, rows, Us, t + 1, |rows|);
    }
  }

  /** `indexFromItem` finds the target right after the rows before it. */
  lemma RowOfBetween<T>(a: seq<T>, x: T, b: seq<T>)
    requires x !in a
    ensures RowOf(a + [x] + b, x) == |a|
  {
    var s := a + [x] + b;
    assert s[|a|] == x;
  }

  /** The steps after the removal loop, once the loop has left the target between `a` and `b`. */
  lemma ReinsertAround<T>(a: seq<T>, x: T, b: seq<T>, seen: bool, putItAfter: bool, items: seq<T>)
    requires x !in a && x !in b
    ensures Reinsert(Taken(a + [x] + b, seen), x, putItAfter, items)
         == InsertAll(if seen then a + b else a + [x] + b,
                      |a| + (if putItAfter && !(seen && |b| == 0) then 1 else 0),
                      items)
  {
    var s := a + [x] + b;
    RowOfBetween(a, x, b);
    assert s[|s| - 1] == x <==> |b| == 0 by {
      if |b| > 0 {
        assert s[|s| - 1] == b[|b| - 1];
      }
    }
    if seen {
      assert TakeRow(s, |a|) == a + b;
    }
  }

  /** What the removal loop returns, in terms of the original rows. */
  lemma RemovalResult<T>(rows: seq<T>, sel: set<int>, t: int)
    requires Distinct(rows) && 0 <= t < |rows|
    ensures TakeSelected(rows, Picked(rows, sel), rows[t])
         == Taken(Before(rows, sel, t) + [rows[t]] + Behind(rows, sel, t), t in sel)
  {
    RemovalSeesTarget(rows, sel, t);
    RemovalLeavesTarget(rows, sel, t);
  }

  /** The unselected rows are those before the target, the target if unselected, and those after. */
  lemma UnmovedBesideTarget<T>(rows: seq<T>, sel: set<int>, t: int)
    requires 0 <= t < |rows|
    ensures Unmoved(rows, sel)
         == if t in sel then Before(rows, sel, t) + Behind(rows, sel, t)
            else Before(rows, sel, t) + [rows[t]] + Behind(rows, sel, t)
  {
    UnmovedAround(rows, sel, t);
  }

  /** A reorder re-inserts the dragged rows, as one run, at `Slot` among the unselected rows. */
  lemma ReorderInsertsAtSlot<T>(rows: seq<T>, sel: set<int>, t: int, putItAfter: bool)
    requires Distinct(rows) && 0 <= t < |rows|
    ensures Slot(rows, sel, t, putItAfter) <= |Unmoved(rows, sel)|
    ensures Reorder(rows, sel, t, putItAfter) == InsertAll(Unmoved(rows, sel), Slot(rows, sel, t, putItAfter), Moved(rows, sel))
  {
    var A := Before(rows, sel, t);
    var B := Behind(rows, sel, t);
    var x := rows[t];
    var items := Items(Picked(rows, sel));
    RemovalResult(rows, sel, t);
    TargetNotAround(rows, sel, t);
    ReinsertAround(A, x, B, t in sel, putItAfter, items);
    UnmovedBesideTarget(rows, sel, t);
    PickEnumerate(rows, sel, 0, |rows|);
  }

  /**
   * The shape of a reorder: the unselected rows keep their order, and the selected rows,
   * in ascending original order, form one block at `Slot`, which never lies past the end.
   */
  lemma ReorderShape<T>(rows: seq<T>, sel: set<int>, t: int, putItAfter: bool)
    requires Distinct(rows) && 0 <= t < |rows|
    ensures var U := Unmoved(rows, sel);
      var p := Slot(rows, sel, t, putItAfter);
      && p <= |U|
      && Reorder(rows, sel, t, putItAfter) == U[..p] + Moved(rows, sel) + U[p..]
  {
    ReorderInsertsAtSlot(rows, sel, t, putItAfter);
    InsertAllInRange(Unmoved(rows, sel), Slot(rows, sel, t, putItAfter), Moved(rows, sel));
  }

  /** No row is lost or duplicated: a reorder is a permutation of the rows. */
  lemma ReorderPermutes<T>(rows: seq<T>, sel: set<int>, t: int, putItAfter: bool)
    requires Distinct(rows) && 0 <= t < |rows|
    ensures |Reorder(rows, sel, t, putItAfter)| == |rows|
    ensures multiset(Reorder(rows, sel, t, putItAfter)) == multiset(rows)
  {
    var U := Unmoved(rows, sel);
    var M := Moved(rows, sel);
    var p := Slot(rows, sel, t, putItAfter);
    ReorderShape(rows, sel, t, putItAfter);
    SpliceCounts(U, p, M);
    PickPartition(rows, Unselected(sel, |rows|), sel, |rows|);
    assert rows[0..|rows|] == rows;
    assert |rows| == |multiset(rows)| == |U| + |M|;
  }

  /**
   * The dragged rows form one block, in ascending original-row order, and taking that
   * block out leaves the unselected rows in their original order.
   */
  lemma ReorderBlock<T>(rows: seq<T>, sel: set<int>, t: int, putItAfter: bool)
    requires Distinct(rows) && 0 <= t < |rows|
    ensures var r := Reorder(rows, sel, t, putItAfter);
      var p := Slot(rows, sel, t, putItAfter);
      var m := |Moved(rows, sel)|;
      && p + m <= |r|
      && r[p..p + m] == Moved(rows, sel)
      && r[..p] + r[p + m..] == Unmoved(rows, sel)
  {
    var U := Unmoved(rows, sel);
    var M := Moved(rows, sel);
    var p := Slot(rows, sel, t, putItAfter);
    ReorderShape(rows, sel, t, putItAfter);
    SpliceParts(U, p, M, Reorder(rows, sel, t, putItAfter));
  }

  /** A block spliced into a sequence can be cut out again. */
  lemma SpliceParts<T>(u: seq<T>, p: int, m: seq<T>, r: seq<T>)
    requires 0 <= p <= |u| && r == u[..p] + m + u[p..]
    ensures p + |m| <= |r| && r[p..p + |m|] == m && r[..p] + r[p + |m|..] == u
  {
    assert r[..p] == u[..p];
    assert r[p..p + |m|] == m;
    assert r[p + |m|..] == u[p..];
  }

  /**
   * When the target is not dragged, the block lands right before it, or right after it
   * when dropping after it.
   */
  lemma ReorderBesideTarget<T>(rows: seq<T>, sel: set<int>, t: int, putItAfter: bool)
    requires Distinct(rows) && 0 <= t < |rows| && t !in sel
    ensures Reorder(rows, sel, t, putItAfter)
         == if putItAfter then Before(rows, sel, t) + [rows[t]] + Moved(rows, sel) + Behind(rows, sel, t)
            else Before(rows, sel, t) + Moved(rows, sel) + [rows[t]] + Behind(rows, sel, t)
  {
    var A := Before(rows, sel, t);
    var B := Behind(rows, sel, t);
    var M := Moved(rows, sel);
    var U := A + [rows[t]] + B;
    ReorderShape(rows, sel, t, putItAfter);
    UnmovedBesideTarget(rows, sel, t);
    if putItAfter {
      assert U[..|A| + 1] == A + [rows[t]];
      assert U[|A| + 1..] == B;
    } else {
      assert U[..|A|] == A;
      assert U[|A|..] == [rows[t]] + B;
    }
  }

  /**
   * When the target is itself dragged, the block lands where the target was, except that
   * dropping after it moves the block past the first unselected row that followed it.
   * With no unselected row after the target, the block is appended at the very end.
   */
  lemma ReorderDraggedTarget<T>(rows: seq<T>, sel: set<int>, t: int, putItAfter: bool)
    requires Distinct(rows) && 0 <= t < |rows| && t in sel
    ensures var B := Behind(rows, sel, t);
      Reorder(rows, sel, t, putItAfter)
         == if putItAfter && |B| > 0 then Before(rows, sel, t) + [B[0]] + Moved(rows, sel) + B[1..]
            else Before(rows, sel, t) + Moved(rows, sel) + B
  {
    var A := Before(rows, sel, t);
    var B := Behind(rows, sel, t);
    var U := Unmoved(rows, sel);
    var p := Slot(rows, sel, t, putItAfter);
    assert Reorder(rows, sel, t, putItAfter) == U[..p] + Moved(rows, sel) + U[p..] by {
      ReorderShape(rows, sel, t, putItAfter);
    }
    assert U == A + B by {
      UnmovedBesideTarget(rows, sel, t);
    }
    SpliceAfter(U, A, B, Moved(rows, sel), p - |A|);
  }

  /** Splicing a block into `a + b` at most one entry into `b`. */
  lemma SpliceAfter<T>(u: seq<T>, a: seq<T>, b: seq<T>, m: seq<T>, k: int)
    requires u == a + b && 0 <= k <= 1 && k <= |b|
    ensures u[..|a| + k] + m + u[|a| + k..] == if k == 1 then a + [b[0]] + m + b[1..] else a + m + b
  {
    if k == 1 {
      assert u[..|a| + 1] == a + [b[0]];
      assert u[|a| + 1..] == b[1..];
    } else {
      assert u[..|a|] == a;
      assert u[|a|..] == b;
    }
  }

  /**
   * The last-row guard is what keeps the block: when the dragged target has no unselected
   * row after it, inserting one row further on, as the general rule would, is past the
   * end of the model and every dragged item would be dropped.
   */
  lemma LastRowGuardNeeded<T>(rows: seq<T>, sel: set<int>, t: int)
    requires 0 <= t < |rows| && t in sel && |Behind(rows, sel, t)| == 0
    ensures |Before(rows, sel, t)| + 1 > |Unmoved(rows, sel)|
    ensures InsertAll(Unmoved(rows, sel), |Before(rows, sel, t)| + 1, Moved(rows, sel)) == Unmoved(rows, sel)
  {
    UnmovedBesideTarget(rows, sel, t);
    InsertAllPastEnd(Unmoved(rows, sel), |Before(rows, sel, t)| + 1, Moved(rows, sel));
  }
}

=== FILE: selected_folders.dfy ===
/**
 * The folder list panel (`SelectedFolders`): folders are appended one at a time or
 * merged in from a saved folder file, selected rows are removed, and the list is saved
 * one folder per line. After each change that goes through, the panel hands the new
 * list to the explorer logic (`update_selected_folders`); `Effect.notified` records it.
 * The dialogs that choose a folder or a file are parameters: an empty string or `None`
 * stands for a cancelled dialog. The list's rows are the sequence itself, which is
 * what `get_folder_list` returns.
 */
module SelectedFolders {
  import opened Wrappers
  import opened Subseq
  import opened Reordering
  import opened PyStr

  /** The folder list after an action, and the list handed to the explorer logic, if any. */
  datatype Effect = Effect(folders: seq<string>, notified: Option<seq<string>>)

  /** The elements of a sequence. */
  function Elems<T>(s: seq<T>): set<T>
  {
    set x | x in s
  }

  /** `select_folder`: a chosen folder is appended, even when already listed. */
  function SelectFolder(folders: seq<string>, chosen: string): (e: Effect)
    ensures chosen == "" ==> e == Effect(folders, None)
    ensures chosen != "" ==>
      && |e.folders| == |folders| + 1
      && e.folders[..|folders|] == folders
      && e.folders[|folders|] == chosen
      && multiset(e.folders) == multiset(folders) + multiset{chosen}
      && e.notified == Some(e.folders)
  {
    if chosen == "" then Effect(folders, None)
    else
      var fs := folders + [chosen];
      assert fs[..|folders|] == folders;
      Effect(fs, Some(fs))
  }

  /** The folders `remove_folder` keeps: those whose rows are not selected, in order. */
  function Remaining(folders: seq<string>, selected: set<int>): seq<string>
  {
    Pick(folders, Unselected(selected, |folders|), 0, |folders|)
  }

  /**
   * Taking the item found at row `RowOf(p, rows[j])` out of the rows still present
   * removes exactly position `j`, whether or not it was still there.
   */
  lemma TakeItem<T>(rows: seq<T>, done: set<int>, j: int)
    requires Distinct(rows) && 0 <= j < |rows|
    ensures var p := Pick(rows, Unselected(done, |rows|), 0, |rows|);
      TakeRow(p, RowOf(p, rows[j])) == Pick(rows, Unselected(done + {j}, |rows|), 0, |rows|)
  {
    var n := |rows|;
    var U := Unselected(done, n);
    var U' := Unselected(done + {j}, n);
    if j in done {
      assert U' == U;
      PickAbsent(rows, U, j);
    } else {
      TakeItemAt(rows, U, U', j);
    }
  }

  /** The step of `TakeItem` for an item still present. */
  lemma TakeItemAt<T>(rows: seq<T>, U: set<int>, U': set<int>, j: int)
    requires Distinct(rows) && 0 <= j < |rows|
    requires j in U && j !in U'
    requires forall i :: 0 <= i < |rows| && i != j ==> (i in U <==> i in U')
    ensures var p := Pick(rows, U, 0, |rows|);
      TakeRow(p, RowOf(p, rows[j])) == Pick(rows, U', 0, |rows|)
  {
    var n := |rows|;
    var a := Pick(rows, U, 0, j);
    var b := Pick(rows, U, j + 1, n);
    PickAround(rows, U, j);
    if rows[j] in a {
      PickFrom(rows, U, 0, j, rows[j]);
    }
    RowOfBetween(a, rows[j], b);
    assert TakeRow(a + [rows[j]] + b, |a|) == a + b;
    PickWithout(rows, U, U', j);
  }

  /** The pick around a picked position `j`: the part before, the entry, the part after. */
  lemma PickAround<T>(rows: seq<T>, U: set<int>, j: int)
    requires 0 <= j < |rows| && j in U
    ensures Pick(rows, U, 0, |rows|) == Pick(rows, U, 0, j) + [rows[j]] + Pick(rows, U, j + 1, |rows|)
  {
    var n := |rows|;
    assert Pick(rows, U, j, j + 1) == [rows[j]] by {
      assert Pick(rows, U, j, j) == [];
    }
    calc {
      Pick(rows, U, 0, n);
      { PickSplit(rows, U, 0, j, n); }
      Pick(rows, U, 0, j) + Pick(rows, U, j, n);
      { PickSplit(rows, U, j, j + 1, n); }
      Pick(rows, U, 0, j) + (Pick(rows, U, j, j + 1) + Pick(rows, U, j + 1, n));
      Pick(rows, U, 0, j) + [rows[j]] + Pick(rows, U, j + 1, n);
    }
  }

  /** Leaving position `j` out of the picked set leaves its entry out of the pick. */
  lemma PickWithout<T>(rows: seq<T>, U: set<int>, U': set<int>, j: int)
    requires 0 <= j < |rows| && j !in U'
    requires forall i :: 0 <= i < |rows| && i != j ==> (i in U <==> i in U')
    ensures Pick(rows, U', 0, |rows|) == Pick(rows, U, 0, j) + Pick(rows, U, j + 1, |rows|)
  {
    var n := |rows|;
    assert Pick(rows, U', 0, n) == Pick(rows, U', 0, j) + Pick(rows, U', j + 1, n) by {
      PickSplit(rows, U', 0, j, n);
      PickSplit(rows, U', j, j + 1, n);
      assert Pick(rows, U', j, j + 1) == [];
    }
    assert Pick(rows, U', 0, j) == Pick(rows, U, 0, j) by {
      PickSame(rows, U, rows, U', 0, j);
    }
    assert Pick(rows, U', j + 1, n) == Pick(rows, U, j + 1, n) by {
      PickSame(rows, U, rows, U', j + 1, n);
    }
  }

  /** Nothing selected: every entry is picked. */
  lemma PickUnselectedNone<T>(rows: seq<T>)
    ensures Pick(rows, Unselected({}, |rows|), 0, |rows|) == rows
  {
    forall i | 0 <= i < |rows|
      ensures i in Unselected({}, |rows|)
    {
    }
    PickAll(rows, Unselected({}, |rows|), 0, |rows|);
    assert rows[0..|rows|] == rows;
  }

  /**
   * `remove_folder`: takes every selected item out of the list, in the order the
   * selection lists them, each at the row it occupies at that moment. A selected item is
   * identified by its row before the removal, `selected[k]`.
   */
  method RemoveFolders(folders: seq<string>, selected: seq<int>) returns (e: Effect)
    requires forall k :: 0 <= k < |selected| ==> 0 <= selected[k] < |folders|
    ensures e.folders == Remaining(folders, Elems(selected))
    ensures |selected| == 0 ==> e == Effect(folders, None)
    ensures |selected| > 0 ==> e.notified == Some(e.folders)
  {
    if |selected| == 0 {
      assert Elems(selected) == {};
      PickUnselectedNone(folders);
      return Effect(folders, None);
    }
    var n := |folders|;
    var items := Enumerate(folders);
    EnumerateDistinct(folders);
    PickUnselectedNone(items);
    assert Elems(selected[..0]) == {};
    var list := items;
    var k := 0;
    while k < |selected|
      invariant 0 <= k <= |selected|
      invariant list == Pick(items, Unselected(Elems(selected[..k]), n), 0, n)
    {
      var j := selected[k];
      TakeItem(items, Elems(selected[..k]), j);
      list := TakeRow(list, RowOf(list, items[j]));
      assert Elems(selected[..k + 1]) == Elems(selected[..k]) + {j} by {
        assert selected[..k + 1] == selected[..k] + [j];
      }
      k := k + 1;
    }
    assert selected[..k] == selected;
    PickEnumerate(folders, Unselected(Elems(selected), n), 0, n);
    var remaining := Items(list);
    e := Effect(remaining, Some(remaining));
  }

  /** `remove_folder` keeps the unselected folders and drops the selected ones, nothing else. */
  lemma RemovePartitions(folders: seq<string>, selected: set<int>)
    ensures multiset(Remaining(folders, selected)) + multiset(Pick(folders, selected, 0, |folders|))
         == multiset(folders)
  {
    PickPartition(folders, Unselected(selected, |folders|), selected, |folders|);
    assert folders[0..|folders|] == folders;
  }

  const Suffix: string := ".fecf"

  /** The file name `save_folders` writes to: the chosen name, made to end in ".fecf". */
  function SaveFileName(name: string): (r: string)
    ensures EndsWith(r, Suffix)
    ensures EndsWith(name, Suffix) ==> r == name
    ensures !EndsWith(name, Suffix) ==> |r| == |name| + |Suffix| && r[..|name|] == name
  {
    if EndsWith(name, Suffix) then name else name + Suffix
  }

  /** Choosing the name a save produced saves to that same name again. */
  lemma SaveFileNameIdempotent(name: string)
    ensures SaveFileName(SaveFileName(name)) == SaveFileName(name)
  {
  }

  /** A text file name gets the folder file suffix appended, not substituted. */
  lemma SaveFileNameExample()
    ensures SaveFileName("x.txt") == "x.txt.fecf"
  {
    assert !EndsWith("x.txt", Suffix) by {
      assert "x.txt"[0] != Suffix[0];
    }
  }

  /** Each folder followed by a newline: the lines of a saved folder file. */
  function FolderLines(folders: seq<string>): (ls: seq<string>)
    ensures |ls| == |folders|
    ensures forall i :: 0 <= i < |folders| ==> ls[i] == folders[i] + "\n"
  {
    seq(|folders|, i requires 0 <= i < |folders| => folders[i] + "\n")
  }

  /** The content `save_folders` writes: one line per folder, in list order. */
  function Serialize(folders: seq<string>): (text: string)
  {
    Concat(FolderLines(folders))
  }

  /** `save_folders`: with a file chosen, the file name to write and the content to write. */
  function SaveFolders(folders: seq<string>, chosen: string): (r: Option<(string, string)>)
    ensures r.None? <==> chosen == ""
    ensures r.Some? ==> r.value.0 == SaveFileName(chosen) && EndsWith(r.value.0, Suffix)
    ensures r.Some? ==> r.value.1 == Serialize(folders)
  {
    if chosen == "" then None else Some((SaveFileName(chosen), Serialize(folders)))
  }

  /** A saved file read back splits into exactly the saved lines, when no folder holds a newline. */
  lemma SerializeLines(folders: seq<string>)
    requires forall i :: 0 <= i < |folders| ==> '\n' !in folders[i]
    ensures ReadLines(Serialize(folders)) == FolderLines(folders)
  {
    var ls := FolderLines(folders);
    forall i | 0 <= i < |ls|
      ensures Line(ls[i])
    {
      assert ls[i][..|ls[i]| - 1] == folders[i];
    }
    ReadLinesOfLines(ls);
  }

  /**
   * The newline translation of a file opened for reading in text mode: "\r\n" and a
   * lone "\r" each become "\n".
   */
  function Universal(text: string): (r: string)
    ensures '\r' !in r
    decreases |text|
  {
    if |text| == 0 then ""
    else if text[0] == '\r' then
      "\n" + Universal(if |text| > 1 && text[1] == '\n' then text[2..] else text[1..])
    else [text[0]] + Universal(text[1..])
  }

  /** A "\r\n" pair and a lone "\r" each read as one "\n". */
  lemma UniversalEndings()
    ensures Universal("\r\n") == "\n"
    ensures Universal("\r") == "\n"
    ensures Universal("\r\r") == "\n\n"
    ensures Universal("a\rb") == "a\nb"
  {
    assert "\r\n"[2..] == "";
    assert "\r\r"[1..] == "\r";
    assert "a\rb"[1..] == "\rb";
    assert "\rb"[1..] == "b";
  }

  /** Text cut anywhere but inside a "\r\n" pair translates piece by piece. */
  lemma {:induction false} UniversalAppend(a: string, b: string)
    requires !(|a| > 0 && a[|a| - 1] == '\r' && |b| > 0 && b[0] == '\n')
    ensures Universal(a + b) == Universal(a) + Universal(b)
    decreases |a|
  {
    if |a| == 0 {
      assert a + b == b;
    } else {
      var ab := a + b;
      var n := HeadWidth(a);
      assert HeadWidth(ab) == n && HeadOut(ab) == HeadOut(a) by {
        assert ab[0] == a[0];
        if |a| > 1 {
          assert ab[1] == a[1];
        }
      }
      assert ab[n..] == a[n..] + b;
      var h, x, y := HeadOut(a), Universal(a[n..]), Universal(b);
      assert Universal(ab) == h + Universal(a[n..] + b) by {
        UniversalUnfold(ab);
      }
      assert Universal(a[n..] + b) == x + y by {
        UniversalAppend(a[n..], b);
      }
      assert Universal(a) == h + x by {
        UniversalUnfold(a);
      }
      assert h + (x + y) == (h + x) + y;
    }
  }

  /** The number of characters that make up the first line ending or character of `t`. */
  function HeadWidth(t: string): nat
    requires |t| > 0
  {
    if t[0] == '\r' && |t| > 1 && t[1] == '\n' then 2 else 1
  }

  /** What the first line ending or character of `t` reads as. */
  function HeadOut(t: string): string
    requires |t| > 0
  {
    if t[0] == '\r' then "\n" else [t[0]]
  }

  /** The translation reads the head of the text, then the rest. */
  lemma UniversalUnfold(t: string)
    requires |t| > 0
    ensures Universal(t) == HeadOut(t) + Universal(t[HeadWidth(t)..])
  {
  }

  /** Text without carriage returns is read back unchanged. */
  lemma {:induction false} UniversalPlain(text: string)
    requires '\r' !in text
    ensures Universal(text) == text
    decreases |text|
  {
    if |text| > 0 {
      UniversalPlain(text[1..]);
      assert text == [text[0]] + text[1..];
    }
  }

  /** The folders a folder file's content lists: its lines, each stripped. */
  function ParseFolders(content: string): (fs: seq<string>)
    ensures LineWindows(ReadLines(Universal(content)), fs)
  {
    var lines := ReadLines(Universal(content));
    StripEach(lines)
  }

  /** The positions of lines that are neither known already nor repeats of an earlier line. */
  function FirstFresh(known: set<string>, lines: seq<string>): set<int>
  {
    set i | 0 <= i < |lines| && lines[i] !in known && lines[i] !in lines[..i]
  }

  /**
   * The folders a load appends: each line not in the list, at its first occurrence,
   * in file order.
   */
  function Appended(folders: seq<string>, lines: seq<string>): seq<string>
  {
    Pick(lines, FirstFresh(Elems(folders), lines), 0, |lines|)
  }

  /** The merge loop of `load_folders`, with `known` the folders listed or already added. */
  method NewFolders(folders: seq<string>, lines: seq<string>) returns (added: seq<string>)
    ensures added == Appended(folders, lines)
  {
    var known := Elems(folders);
    added := [];
    var k := 0;
    while k < |lines|
      invariant 0 <= k <= |lines|
      invariant known == Elems(folders) + Elems(lines[..k])
      invariant added == Pick(lines, FirstFresh(Elems(folders), lines), 0, k)
    {
      assert lines[..k + 1] == lines[..k] + [lines[k]];
      if lines[k] !in known {
        added := added + [lines[k]];
        known := known + {lines[k]};
      }
      k := k + 1;
    }
  }

  /**
   * `load_folders`: with a file chosen, the folders its content lists that are new are
   * appended, and the list is handed on even when nothing was added.
   */
  method LoadFolders(folders: seq<string>, content: Option<string>) returns (e: Effect)
    ensures content.None? ==> e == Effect(folders, None)
    ensures content.Some? ==>
      && e.folders == folders + Appended(folders, ParseFolders(content.value))
      && e.notified == Some(e.folders)
  {
    if content.None? {
      return Effect(folders, None);
    }
    var added := NewFolders(folders, ParseFolders(content.value));
    var fs := folders + added;
    e := Effect(fs, Some(fs));
  }

  /** What a load appends is new, free of repeats, and covers every new line. */
  lemma AppendedFresh(folders: seq<string>, lines: seq<string>)
    ensures Distinct(Appended(folders, lines))
    ensures forall x :: x in Appended(folders, lines) <==> x in lines && x !in folders
  {
    var S := FirstFresh(Elems(folders), lines);
    var n := |lines|;
    forall i, j | 0 <= i < j < n && i in S && j in S
      ensures lines[i] != lines[j]
    {
      assert lines[..j][i] == lines[i];
    }
    PickDistinct(lines, S, 0, n);
    forall x
      ensures x in Appended(folders, lines) <==> x in lines && x !in folders
    {
      if x in Appended(folders, lines) {
        PickFrom(lines, S, 0, n, x);
      }
      if x in lines && x !in folders {
        var i := FirstIndex(lines, x);
        PickHas(lines, S, i);
      }
    }
  }

  /** The first position holding `x`. */
  function FirstIndex(lines: seq<string>, x: string): (i: int)
    requires x in lines
    ensures 0 <= i < |lines| && lines[i] == x && x !in lines[..i]
  {
    if lines[0] == x then 0
    else
      var i := FirstIndex(lines[1..], x);
      assert lines[..i + 1] == [lines[0]] + lines[1..][..i];
      i + 1
  }

  /** A picked position's entry is in the pick. */
  lemma PickHas<T>(rows: seq<T>, S: set<int>, i: int)
    requires 0 <= i < |rows| && i in S
    ensures rows[i] in Pick(rows, S, 0, |rows|)
  {
    PickSplit(rows, S, 0, i, |rows|);
    PickSplit(rows, S, i, i + 1, |rows|);
    assert Pick(rows, S, i, i + 1) == [rows[i]];
  }

  /** Loading the same file again appends nothing. */
  lemma LoadTwiceAppendsNothing(folders: seq<string>, lines: seq<string>)
    ensures Appended(folders + Appended(folders, lines), lines) == []
  {
    AppendedFresh(folders, lines);
    var fs := folders + Appended(folders, lines);
    forall i | 0 <= i < |lines|
      ensures i !in FirstFresh(Elems(fs), lines)
    {
      assert lines[i] in fs;
    }
    PickNone(lines, FirstFresh(Elems(fs), lines), 0, |lines|);
  }

  /** Lines that are distinct and all new are appended as they are. */
  lemma AppendedAllNew(folders: seq<string>, lines: seq<string>)
    requires Distinct(lines)
    requires forall i :: 0 <= i < |lines| ==> lines[i] !in folders
    ensures Appended(folders, lines) == lines
  {
    forall i | 0 <= i < |lines|
      ensures i in FirstFresh(Elems(folders), lines)
    {
      assert lines[i] !in lines[..i];
    }
    PickAll(lines, FirstFresh(Elems(folders), lines), 0, |lines|);
    assert lines[0..|lines|] == lines;
  }

  /** A character absent from every part is absent from their concatenation. */
  lemma {:induction false} ConcatLacks(parts: seq<string>, c: char)
    requires forall i :: 0 <= i < |parts| ==> c !in parts[i]
    ensures c !in Concat(parts)
    decreases |parts|
  {
    if |parts| > 0 {
      ConcatLacks(parts[1..], c);
    }
  }

  /**
   * Reading back a saved list gives the list, when no folder has whitespace at either
   * end or a line break inside.
   */
  lemma ParseSerialized(folders: seq<string>)
    requires forall i :: 0 <= i < |folders| ==> Trimmed(folders[i]) && '\n' !in folders[i] && '\r' !in folders[i]
    ensures ParseFolders(Serialize(folders)) == folders
  {
    var ls := FolderLines(folders);
    ConcatLacks(ls, '\r');
    UniversalPlain(Serialize(folders));
    SerializeLines(folders);
    forall i | 0 <= i < |folders|
      ensures Strip(ls[i]) == folders[i]
    {
      StripLine(folders[i]);
    }
  }

  /** Saving a list without repeats and loading it into an empty panel restores the list. */
  lemma SaveLoadRoundTrip(folders: seq<string>)
    requires Distinct(folders)
    requires forall i :: 0 <= i < |folders| ==> Trimmed(folders[i]) && '\n' !in folders[i] && '\r' !in folders[i]
    ensures Appended([], ParseFolders(Serialize(folders))) == folders
  {
    ParseSerialized(folders);
    AppendedAllNew([], folders);
  }
}

=== FILE: subseq.dfy ===
/**
 * Index-filtered subsequences: the entries of a sequence whose positions belong to a
 * set, kept in ascending position order. The reorder, remove and merge operations of
 * the file browser are all stated in terms of this one notion.
 */
module Subseq {

  /** The entries `rows[i]` with `lo <= i < hi` and `i in S`, in ascending order of `i`. */
  function Pick<T>(rows: seq<T>, S: set<int>, lo: int, hi: int): (r: seq<T>)
    requires 0 <= lo <= hi <= |rows|
    ensures |r| <= hi - lo
    decreases hi - lo
  {
    if lo == hi then [] else Pick(rows, S, lo, hi - 1) + (if hi - 1 in S then [rows[hi - 1]] else [])
  }

  /** The positions below `n` that are not in `S`. */
  function Unselected(S: set<int>, n: int): set<int>
  {
    set i | 0 <= i < n && i !in S
  }

  /** Each entry paired with its position, as a model of "row number + item". */
  function Enumerate<T>(rows: seq<T>): (e: seq<(int, T)>)
    ensures |e| == |rows|
    ensures forall i :: 0 <= i < |rows| ==> e[i] == (i, rows[i])
  {
    seq(|rows|, i requires 0 <= i < |rows| => (i, rows[i]))
  }

  /** The second components of a sequence of pairs. */
  function Items<T>(ps: seq<(int, T)>): (r: seq<T>)
    ensures |r| == |ps|
    ensures forall k :: 0 <= k < |ps| ==> r[k] == ps[k].1
  {
    seq(|ps|, k requires 0 <= k < |ps| => ps[k].1)
  }

  predicate Distinct<T(==)>(s: seq<T>)
  {
    forall i, j :: 0 <= i < j < |s| ==> s[i] != s[j]
  }

  lemma {:induction false} PickSplit<T>(rows: seq<T>, S: set<int>, lo: int, mid: int, hi: int)
    requires 0 <= lo <= mid <= hi <= |rows|
    ensures Pick(rows, S, lo, hi) == Pick(rows, S, lo, mid) + Pick(rows, S, mid, hi)
    decreases hi - mid
  {
    if hi != mid {
      PickSplit(rows, S, lo, mid, hi - 1);
    }
  }

  /** Picking depends only on the entries and the memberships inside the window. */
  lemma {:induction false} PickSame<T>(rows: seq<T>, S: set<int>, rows': seq<T>, S': set<int>, lo: int, hi: int)
    requires 0 <= lo <= hi <= |rows| && hi <= |rows'|
    requires forall i :: lo <= i < hi ==> rows[i] == rows'[i] && (i in S <==> i in S')
    ensures Pick(rows, S, lo, hi) == Pick(rows', S', lo, hi)
    decreases hi - lo
  {
    if lo != hi {
      PickSame(rows, S, rows', S', lo, hi - 1);
    }
  }

  lemma {:induction false} PickAll<T>(rows: seq<T>, S: set<int>, lo: int, hi: int)
    requires 0 <= lo <= hi <= |rows|
    requires forall i :: lo <= i < hi ==> i in S
    ensures Pick(rows, S, lo, hi) == rows[lo..hi]
    decreases hi - lo
  {
    if lo != hi {
      PickAll(rows, S, lo, hi - 1);
      assert rows[lo..hi] == rows[lo..hi - 1] + [rows[hi - 1]];
    }
  }

  lemma {:induction false} PickNone<T>(rows: seq<T>, S: set<int>, lo: int, hi: int)
    requires 0 <= lo <= hi <= |rows|
    requires forall i :: lo <= i < hi ==> i !in S
    ensures Pick(rows, S, lo, hi) == []
    decreases hi - lo
  {
    if lo != hi {
      PickNone(rows, S, lo, hi - 1);
    }
  }

  /** Every picked entry comes from a position of the window that is in `S`. */
  lemma {:induction false} PickFrom<T>(rows: seq<T>, S: set<int>, lo: int, hi: int, x: T)
    requires 0 <= lo <= hi <= |rows|
    requires x in Pick(rows, S, lo, hi)
    ensures exists i :: lo <= i < hi && i in S && rows[i] == x
    decreases hi - lo
  {
    if lo != hi {
      if x in Pick(rows, S, lo, hi - 1) {
        PickFrom(rows, S, lo, hi - 1, x);
      } else {
        assert rows[hi - 1] == x;
      }
    }
  }

  /** A set and its complement split the entries below `hi` between them. */
  lemma {:induction false} PickPartition<T>(rows: seq<T>, S: set<int>, S': set<int>, hi: int)
    requires 0 <= hi <= |rows|
    requires forall i :: 0 <= i < hi ==> (i in S <==> i !in S')
    ensures multiset(Pick(rows, S, 0, hi)) + multiset(Pick(rows, S', 0, hi)) == multiset(rows[..hi])
    decreases hi
  {
    if hi != 0 {
      PickPartition(rows, S, S', hi - 1);
      assert rows[..hi] == rows[..hi - 1] + [rows[hi - 1]];
      PartitionStep(Pick(rows, S, 0, hi - 1), Pick(rows, S', 0, hi - 1), rows[..hi - 1],
        Pick(rows, S, 0, hi), Pick(rows, S', 0, hi), rows[..hi], rows[hi - 1], hi - 1 in S);
    }
  }

  /** Adding one entry to the whole and to one side of a split keeps it a split. */
  lemma PartitionStep<T>(a: seq<T>, b: seq<T>, w: seq<T>, a': seq<T>, b': seq<T>, w': seq<T>, x: T, left: bool)
    requires multiset(a) + multiset(b) == multiset(w)
    requires w' == w + [x]
    requires if left then a' == a + [x] && b' == b else a' == a && b' == b + [x]
    ensures multiset(a') + multiset(b') == multiset(w')
  {
  }

  /** Picking from the enumerated rows yields ascending positions of `S`, each with its entry. */
  lemma {:induction false} PickEnumerate<T>(rows: seq<T>, S: set<int>, lo: int, hi: int)
    requires 0 <= lo <= hi <= |rows|
    ensures var ps := Pick(Enumerate(rows), S, lo, hi);
      && Items(ps) == Pick(rows, S, lo, hi)
      && (forall k :: 0 <= k < |ps| ==> lo <= ps[k].0 < hi && ps[k].0 in S && ps[k].1 == rows[ps[k].0])
      && (forall k, m :: 0 <= k < m < |ps| ==> ps[k].0 < ps[m].0)
    decreases hi - lo
  {
    if lo != hi {
      PickEnumerate(rows, S, lo, hi - 1);
      var ps := Pick(Enumerate(rows), S, lo, hi - 1);
      var tail: seq<(int, T)> := if hi - 1 in S then [(hi - 1, rows[hi - 1])] else [];
      assert Pick(Enumerate(rows), S, lo, hi) == ps + tail;
      assert Items(ps + tail) == Items(ps) + Items(tail);
    }
  }

  /** Picking at positions whose entries differ pairwise gives distinct entries. */
  lemma {:induction false} PickDistinct<T>(rows: seq<T>, S: set<int>, lo: int, hi: int)
    requires 0 <= lo <= hi <= |rows|
    requires forall i, j :: lo <= i < j < hi && i in S && j in S ==> rows[i] != rows[j]
    ensures Distinct(Pick(rows, S, lo, hi))
    decreases hi - lo
  {
    if lo != hi {
      PickDistinct(rows, S, lo, hi - 1);
      if hi - 1 in S && rows[hi - 1] in Pick(rows, S, lo, hi - 1) {
        PickFrom(rows, S, lo, hi - 1, rows[hi - 1]);
      }
    }
  }

  /** An entry of distinct rows is picked only when its position is. */
  lemma PickAbsent<T>(rows: seq<T>, S: set<int>, j: int)
    requires Distinct(rows) && 0 <= j < |rows| && j !in S
    ensures rows[j] !in Pick(rows, S, 0, |rows|)
  {
    if rows[j] in Pick(rows, S, 0, |rows|) {
      PickFrom(rows, S, 0, |rows|, rows[j]);
    }
  }

  /** Enumerated entries are distinct: each carries its own position. */
  lemma EnumerateDistinct<T>(rows: seq<T>)
    ensures Distinct(Enumerate(rows))
  {
  }

  /** Splicing a block into a sequence adds exactly the block's entries. */
  lemma SpliceCounts<T>(u: seq<T>, p: int, m: seq<T>)
    requires 0 <= p <= |u|
    ensures |u[..p] + m + u[p..]| == |u| + |m|
    ensures multiset(u[..p] + m + u[p..]) == multiset(u) + multiset(m)
  {
    assert u == u[..p] + u[p..];
  }
}

=== FILE: thumbnail_model.dfy ===
/**
 * The row list of the thumbnail model (`ThumbnailModel`): one row per regular file of
 * the path list it is given, storing the file's base name (the displayed text) and its
 * directory, and the export of rows back to paths for a drag (`mimeData`).
 * Whether a path names a regular file is a query of the file system, here the
 * parameter `isFile`.
 */
module ThumbnailModel {
  import opened PyPath

  /** One row: the displayed base name and, in the item's user role, the directory. */
  datatype Row = Row(name: string, folder: string)

  /** The model: the path list it was last given and its rows. */
  datatype Model = Model(files: seq<string>, rows: seq<Row>)

  /** The row `load_files` makes for a path. */
  function RowFor(path: string): Row
  {
    Row(Basename(path), Dirname(path))
  }

  /** The paths `isFile` accepts, in order, duplicates included. */
  function Regular(files: seq<string>, isFile: string -> bool): (r: seq<string>)
    ensures |r| <= |files|
    ensures forall i :: 0 <= i < |r| ==> isFile(r[i])
    decreases |files|
  {
    if |files| == 0 then []
    else Regular(files[..|files| - 1], isFile) + (if isFile(files[|files| - 1]) then [files[|files| - 1]] else [])
  }

  /** The filter keeps every regular path as often as it occurs, and nothing else. */
  lemma {:induction false} RegularCounts(files: seq<string>, isFile: string -> bool, p: string)
    ensures multiset(Regular(files, isFile))[p] == if isFile(p) then multiset(files)[p] else 0
    decreases |files|
  {
    if |files| > 0 {
      var n := |files|;
      RegularCounts(files[..n - 1], isFile, p);
      assert files == files[..n - 1] + [files[n - 1]];
    }
  }

  /** Filtering a list made of two parts filters each part, in order. */
  lemma {:induction false} RegularAppend(a: seq<string>, b: seq<string>, isFile: string -> bool)
    ensures Regular(a + b, isFile) == Regular(a, isFile) + Regular(b, isFile)
    decreases |b|
  {
    if |b| > 0 {
      assert (a + b)[..|a + b| - 1] == a + b[..|b| - 1];
      RegularAppend(a, b[..|b| - 1], isFile);
    } else {
      assert a + b == a;
    }
  }

  /** A single path is kept exactly when it is a regular file. */
  lemma RegularOne(x: string, isFile: string -> bool)
    ensures Regular([x], isFile) == if isFile(x) then [x] else []
  {
    assert [x][..0] == [];
  }

  /** `load_files`: appends a row for every regular file of `files`, in order. */
  function LoadFiles(rows: seq<Row>, files: seq<string>, isFile: string -> bool): (r: seq<Row>)
    ensures |r| == |rows| + |Regular(files, isFile)|
    ensures r[..|rows|] == rows
    ensures forall i :: 0 <= i < |Regular(files, isFile)| ==> r[|rows| + i] == RowFor(Regular(files, isFile)[i])
    decreases |files|
  {
    if |files| == 0 then rows
    else
      var n := |files|;
      var r := LoadFiles(rows, files[..n - 1], isFile);
      if isFile(files[n - 1]) then r + [RowFor(files[n - 1])] else r
  }

  /** `ThumbnailModel(files)`: a model loaded from `files`. */
  function NewModel(files: seq<string>, isFile: string -> bool): (m: Model)
    ensures m.files == files
    ensures |m.rows| == |Regular(files, isFile)|
    ensures forall i :: 0 <= i < |m.rows| ==> m.rows[i] == RowFor(Regular(files, isFile)[i])
  {
    Model(files, LoadFiles([], files, isFile))
  }

  /** `update_files`: removes every row, then loads `newFiles`. */
  function UpdateFiles(m: Model, newFiles: seq<string>, isFile: string -> bool): (r: Model)
    ensures r.files == newFiles
    ensures |r.rows| == |Regular(newFiles, isFile)|
    ensures forall i :: 0 <= i < |r.rows| ==> r.rows[i] == RowFor(Regular(newFiles, isFile)[i])
  {
    Model(newFiles, LoadFiles([], newFiles, isFile))
  }

  /** Rebuilding from a path list forgets the old rows: doing it twice is doing it once. */
  lemma UpdateFilesIdempotent(m: Model, newFiles: seq<string>, isFile: string -> bool)
    ensures UpdateFiles(UpdateFiles(m, newFiles, isFile), newFiles, isFile) == UpdateFiles(m, newFiles, isFile)
    ensures UpdateFiles(m, newFiles, isFile) == NewModel(newFiles, isFile)
  {
  }

  /** The path a row stands for: its directory joined with its name. */
  function PathOf(row: Row): string
  {
    Join(row.folder, row.name)
  }

  /** `mimeData`: the paths of the rows at the valid indexes, in the order the indexes come. */
  function MimeData(rows: seq<Row>, indexes: seq<int>): (r: seq<string>)
    ensures |r| <= |indexes|
    decreases |indexes|
  {
    if |indexes| == 0 then []
    else
      var n := |indexes|;
      var i := indexes[n - 1];
      MimeData(rows, indexes[..n - 1]) + (if 0 <= i < |rows| then [PathOf(rows[i])] else [])
  }

  /** With every index valid, the export holds each indexed row's path, in index order. */
  lemma {:induction false} MimeDataValid(rows: seq<Row>, indexes: seq<int>)
    requires forall k :: 0 <= k < |indexes| ==> 0 <= indexes[k] < |rows|
    ensures |MimeData(rows, indexes)| == |indexes|
    ensures forall k :: 0 <= k < |indexes| ==> MimeData(rows, indexes)[k] == PathOf(rows[indexes[k]])
    decreases |indexes|
  {
    if |indexes| > 0 {
      MimeDataValid(rows, indexes[..|indexes| - 1]);
    }
  }

  /** One more index adds its row's path when it is valid, and nothing otherwise. */
  lemma MimeDataSnoc(rows: seq<Row>, ix: seq<int>, i: int, ix': seq<int>)
    requires ix' == ix + [i]
    ensures MimeData(rows, ix') == MimeData(rows, ix) + (if 0 <= i < |rows| then [PathOf(rows[i])] else [])
  {
    assert ix'[..|ix|] == ix;
  }

  /** A non-empty list after another is the pair without its last entry, then that entry. */
  lemma SnocSplit(a: seq<int>, b: seq<int>)
    requires |b| > 0
    ensures a + b == (a + b[..|b| - 1]) + [b[|b| - 1]]
    ensures b == b[..|b| - 1] + [b[|b| - 1]]
  {
  }

  /** The export of two index lists one after the other is the two exports one after the other. */
  lemma {:induction false} MimeDataAppend(rows: seq<Row>, a: seq<int>, b: seq<int>)
    ensures MimeData(rows, a + b) == MimeData(rows, a) + MimeData(rows, b)
    decreases |b|
  {
    if |b| == 0 {
      assert a + b == a;
    } else {
      var n := |b|;
      var i := b[n - 1];
      var last := if 0 <= i < |rows| then [PathOf(rows[i])] else [];
      var front := b[..n - 1];
      var x, y := MimeData(rows, a), MimeData(rows, front);
      SnocSplit(a, b);
      assert MimeData(rows, a + b) == MimeData(rows, a + front) + last by {
        MimeDataSnoc(rows, a + front, i, a + b);
      }
      assert MimeData(rows, a + front) == x + y by {
        MimeDataAppend(rows, a, front);
      }
      assert MimeData(rows, b) == y + last by {
        MimeDataSnoc(rows, front, i, b);
      }
      assert (x + y) + last == x + (y + last);
    }
  }

  /**
   * Wherever it stands in the list, a valid index contributes its row's path and an
   * invalid one contributes nothing.
   */
  lemma MimeDataAt(rows: seq<Row>, a: seq<int>, i: int, b: seq<int>)
    ensures MimeData(rows, a + [i] + b)
         == MimeData(rows, a) + (if 0 <= i < |rows| then [PathOf(rows[i])] else []) + MimeData(rows, b)
  {
    MimeDataAppend(rows, a + [i], b);
    MimeDataAppend(rows, a, [i]);
    assert [i][..0] == [];
  }

  /** Every row index, in order. */
  function AllRows(n: nat): (r: seq<int>)
    ensures |r| == n && forall k :: 0 <= k < n ==> r[k] == k
  {
    seq(n, k requires 0 <= k < n => k)
  }

  /** Exporting every row gives each row's path, in row order. */
  lemma MimeDataAll(rows: seq<Row>)
    ensures |MimeData(rows, AllRows(|rows|))| == |rows|
    ensures forall k :: 0 <= k < |rows| ==> MimeData(rows, AllRows(|rows|))[k] == PathOf(rows[k])
  {
    var all := AllRows(|rows|);
    MimeDataValid(rows, all);
  }

  /** Exporting every row of a rebuilt model rejoins each regular file's directory and name. */
  lemma ExportRejoins(m: Model, files: seq<string>, isFile: string -> bool)
    ensures var rows := UpdateFiles(m, files, isFile).rows;
      && |MimeData(rows, AllRows(|rows|))| == |Regular(files, isFile)|
      && forall k :: 0 <= k < |Regular(files, isFile)| ==>
           MimeData(rows, AllRows(|rows|))[k] == Rejoin(Regular(files, isFile)[k])
  {
    var rows := UpdateFiles(m, files, isFile).rows;
    MimeDataAll(rows);
  }

  /** What the export makes of a path: its directory joined with its base name. */
  function Rejoin(p: string): string
  {
    PathOf(RowFor(p))
  }

  /** A path survives the export unless its last separator is part of a collapsed run. */
  lemma RejoinIff(p: string)
    ensures Rejoin(p) == p <==> !CollapsedSeparator(p)
  {
    JoinRoundTrip(p);
  }

  /** Every path of a list survives the export exactly when none has a collapsed separator. */
  lemma RejoinAllIff(ps: seq<string>)
    ensures (forall k :: 0 <= k < |ps| ==> Rejoin(ps[k]) == ps[k])
        <==> (forall k :: 0 <= k < |ps| ==> !CollapsedSeparator(ps[k]))
  {
    forall k | 0 <= k < |ps|
      ensures Rejoin(ps[k]) == ps[k] <==> !CollapsedSeparator(ps[k])
    {
      RejoinIff(ps[k]);
    }
  }

  /**
   * Exporting every row of a model rebuilt from `files` gives back its regular files,
   * exactly when none of them loses a doubled separator in the split into name and folder.
   */
  lemma ExportRoundTrip(m: Model, files: seq<string>, isFile: string -> bool)
    ensures var rows := UpdateFiles(m, files, isFile).rows;
      MimeData(rows, AllRows(|rows|)) == Regular(files, isFile)
      <==> forall k :: 0 <= k < |Regular(files, isFile)| ==> !CollapsedSeparator(Regular(files, isFile)[k])
  {
    ExportRejoins(m, files, isFile);
    RejoinAllIff(Regular(files, isFile));
  }
}

=== FILE: wrap.dfy ===
/**
 * The caption wrapper of the thumbnail delegate (`wrap_text`): a greedy, character by
 * character line breaker. The font's measure is the parameter `width`, which gives the
 * horizontal advance of a string.
 */
module Wrap {
  import opened Wrappers

  /** The wrapper's state after some characters: the text produced and the current line. */
  datatype Lines = Lines(wrapped: string, line: string)

  /**
   * One iteration of the loop: the character joins the current line. When the line then
   * measures more than `maxWidth`, a newline goes before the character, which starts a
   * new line.
   */
  function Step(st: Lines, c: char, width: string -> int, maxWidth: int): Lines
  {
    var line := st.line + [c];
    if width(line) > maxWidth then Lines(st.wrapped + "\n" + [c], [c]) else Lines(st.wrapped + [c], line)
  }

  /** The loop over all of `text`. */
  function Consume(text: string, width: string -> int, maxWidth: int): (r: Lines)
    decreases |text|
  {
    if |text| == 0 then Lines("", "")
    else Step(Consume(text[..|text| - 1], width, maxWidth), text[|text| - 1], width, maxWidth)
  }

  /** `wrap_text`: no text gives the empty string. */
  function WrapText(text: Option<string>, width: string -> int, maxWidth: int): (r: string)
    ensures text.None? ==> r == ""
  {
    match text
    case None => ""
    case Some(t) => Consume(t, width, maxWidth).wrapped
  }

  /** `t` with a newline inserted before each character whose index is in `breaks`. */
  function InsertBreaks(t: string, breaks: set<int>): (r: string)
    decreases |t|
  {
    if |t| == 0 then ""
    else InsertBreaks(t[..|t| - 1], breaks) + (if |t| - 1 in breaks then "\n" else "") + [t[|t| - 1]]
  }

  /** Where the line holding the first `n` characters starts: the last break before `n`, or 0. */
  function Start(breaks: set<int>, n: int): (s: int)
    ensures 0 <= s <= n || (n < 0 && s == 0)
    ensures 0 < s ==> s in breaks
    decreases n
  {
    if n <= 0 then 0 else if n - 1 in breaks then n - 1 else Start(breaks, n - 1)
  }

  /**
   * The greedy rule stated on the text: character `i` gets a newline before it exactly
   * when the line it would extend, with it added, measures more than `maxWidth`.
   */
  ghost predicate Greedy(t: string, breaks: set<int>, width: string -> int, maxWidth: int)
  {
    && (forall i :: i in breaks ==> 0 <= i < |t|)
    && (forall i :: 0 <= i < |t| ==> Rule(t, breaks, width, maxWidth, i))
  }

  /** The greedy rule at character `i`. */
  ghost predicate Rule(t: string, breaks: set<int>, width: string -> int, maxWidth: int, i: int)
    requires 0 <= i < |t|
  {
    i in breaks <==> width(t[Start(breaks, i)..i + 1]) > maxWidth
  }

  /** The break positions, chosen left to right by the greedy rule. */
  function Breaks(t: string, width: string -> int, maxWidth: int): (b: set<int>)
    ensures forall i :: i in b ==> 0 <= i < |t|
    decreases |t|
  {
    if |t| == 0 then {}
    else
      var b := Breaks(t[..|t| - 1], width, maxWidth);
      if width(t[Start(b, |t| - 1)..]) > maxWidth then b + {|t| - 1} else b
  }

  /** Break sets that agree below `n` give the same line start at `n`. */
  lemma {:induction false} StartSame(b1: set<int>, b2: set<int>, n: int)
    requires forall j :: 0 <= j < n ==> (j in b1 <==> j in b2)
    ensures Start(b1, n) == Start(b2, n)
    decreases n
  {
    if n > 0 {
      StartSame(b1, b2, n - 1);
    }
  }

  /** Inserting at break sets that agree on the indices of `t` gives the same text. */
  lemma {:induction false} InsertBreaksSame(t: string, b1: set<int>, b2: set<int>)
    requires forall j :: 0 <= j < |t| ==> (j in b1 <==> j in b2)
    ensures InsertBreaks(t, b1) == InsertBreaks(t, b2)
    decreases |t|
  {
    if |t| > 0 {
      InsertBreaksSame(t[..|t| - 1], b1, b2);
    }
  }

  /** The breaks of a longer text extend those of its prefix. */
  lemma BreaksStep(t: string, width: string -> int, maxWidth: int)
    requires |t| > 0
    ensures var b := Breaks(t[..|t| - 1], width, maxWidth);
      && (forall j :: 0 <= j < |t| - 1 ==> (j in Breaks(t, width, maxWidth) <==> j in b))
      && Start(Breaks(t, width, maxWidth), |t| - 1) == Start(b, |t| - 1)
  {
    var b := Breaks(t[..|t| - 1], width, maxWidth);
    StartSame(Breaks(t, width, maxWidth), b, |t| - 1);
  }

  /** One more character is one more iteration. */
  lemma ConsumeStep(t: string, width: string -> int, maxWidth: int)
    requires |t| > 0
    ensures Consume(t, width, maxWidth) == Step(Consume(t[..|t| - 1], width, maxWidth), t[|t| - 1], width, maxWidth)
  {
  }

  /** A suffix of a text is the suffix of its prefix followed by the last character. */
  lemma SliceSnoc(t: string, s: int)
    requires 0 <= s < |t|
    ensures t[s..] == t[..|t| - 1][s..] + [t[|t| - 1]]
  {
  }

  /** The loop's current line is the text since the last greedy break. */
  lemma {:induction false} ConsumeLine(t: string, width: string -> int, maxWidth: int)
    ensures Consume(t, width, maxWidth).line == t[Start(Breaks(t, width, maxWidth), |t|)..]
    decreases |t|
  {
    if |t| > 0 {
      var n := |t|;
      var p := t[..n - 1];
      var c := t[n - 1];
      var bp := Breaks(p, width, maxWidth);
      var b := Breaks(t, width, maxWidth);
      var s := Start(bp, n - 1);
      var line := Consume(p, width, maxWidth).line;
      ConsumeStep(t, width, maxWidth);
      ConsumeLine(p, width, maxWidth);
      SliceSnoc(t, s);
      if width(t[s..]) > maxWidth {
        assert b == bp + {n - 1};
        assert Start(b, n) == n - 1;
        assert t[n - 1..] == [c];
      } else {
        assert b == bp;
        assert Start(b, n) == s;
      }
    }
  }

  /** The loop's output is the text with newlines inserted at the greedy breaks. */
  lemma {:induction false} ConsumeWrapped(t: string, width: string -> int, maxWidth: int)
    ensures Consume(t, width, maxWidth).wrapped == InsertBreaks(t, Breaks(t, width, maxWidth))
    decreases |t|
  {
    if |t| > 0 {
      var n := |t|;
      var p := t[..n - 1];
      var c := t[n - 1];
      var b := Breaks(t, width, maxWidth);
      var st := Consume(p, width, maxWidth);
      var over := width(st.line + [c]) > maxWidth;
      var nl := if over then "\n" else "";
      assert Consume(t, width, maxWidth).wrapped == st.wrapped + nl + [c] by {
        ConsumeStep(t, width, maxWidth);
      }
      assert (n - 1 in b) == over by {
        ConsumeLine(p, width, maxWidth);
        SliceSnoc(t, Start(Breaks(p, width, maxWidth), n - 1));
      }
      assert st.wrapped == InsertBreaks(p, b) by {
        ConsumeWrapped(p, width, maxWidth);
        BreaksStep(t, width, maxWidth);
        InsertBreaksSame(p, b, Breaks(p, width, maxWidth));
      }
      assert InsertBreaks(t, b) == InsertBreaks(p, b) + nl + [c];
    }
  }

  /** The greedy breaks follow the greedy rule at every character. */
  lemma {:induction false} BreaksAreGreedy(t: string, width: string -> int, maxWidth: int)
    ensures Greedy(t, Breaks(t, width, maxWidth), width, maxWidth)
    decreases |t|
  {
    if |t| > 0 {
      var n := |t|;
      var p := t[..n - 1];
      BreaksAreGreedy(p, width, maxWidth);
      var bp := Breaks(p, width, maxWidth);
      var b := Breaks(t, width, maxWidth);
      BreaksStep(t, width, maxWidth);
      forall i | 0 <= i < n
        ensures Rule(t, b, width, maxWidth, i)
      {
        if i < n - 1 {
          RuleOnPrefix(t, b, bp, width, maxWidth, i);
        } else {
          assert n - 1 !in bp;
          assert t[Start(b, i)..i + 1] == t[Start(bp, n - 1)..];
        }
      }
    }
  }

  /** The rule at an inner character carries over from the prefix. */
  lemma RuleOnPrefix(t: string, b: set<int>, bp: set<int>, width: string -> int, maxWidth: int, i: int)
    requires 0 <= i < |t| - 1
    requires forall j :: 0 <= j < |t| - 1 ==> (j in b <==> j in bp)
    requires Greedy(t[..|t| - 1], bp, width, maxWidth)
    ensures Rule(t, b, width, maxWidth, i)
  {
    var p := t[..|t| - 1];
    assert Rule(p, bp, width, maxWidth, i);
    StartSame(b, bp, i);
    assert t[Start(b, i)..i + 1] == p[Start(bp, i)..i + 1];
  }

  /** Break sets that both follow the greedy rule agree below `k`. */
  lemma {:induction false} GreedyAgree(t: string, b1: set<int>, b2: set<int>, width: string -> int, maxWidth: int, k: int)
    requires Greedy(t, b1, width, maxWidth) && Greedy(t, b2, width, maxWidth)
    requires 0 <= k <= |t|
    ensures forall j :: 0 <= j < k ==> (j in b1 <==> j in b2)
    decreases k
  {
    if k > 0 {
      GreedyAgree(t, b1, b2, width, maxWidth, k - 1);
      StartSame(b1, b2, k - 1);
      assert Rule(t, b1, width, maxWidth, k - 1) && Rule(t, b2, width, maxWidth, k - 1);
    }
  }

  /** At most one break set follows the greedy rule: the rule determines the output. */
  lemma GreedyUnique(t: string, b1: set<int>, b2: set<int>, width: string -> int, maxWidth: int)
    requires Greedy(t, b1, width, maxWidth) && Greedy(t, b2, width, maxWidth)
    ensures b1 == b2
  {
    GreedyAgree(t, b1, b2, width, maxWidth, |t|);
    assert forall j :: j in b1 <==> j in b2;
  }

  /**
   * `wrap_text` inserts a newline before a character exactly when the greedy rule
   * says so, and changes nothing else.
   */
  lemma WrapTextGreedy(t: string, width: string -> int, maxWidth: int)
    ensures var b := Breaks(t, width, maxWidth);
      && Greedy(t, b, width, maxWidth)
      && WrapText(Some(t), width, maxWidth) == InsertBreaks(t, b)
      && DropNewlines(WrapText(Some(t), width, maxWidth)) == DropNewlines(t)
      && |WrapText(Some(t), width, maxWidth)| == |t| + |b|
  {
    var b := Breaks(t, width, maxWidth);
    ConsumeWrapped(t, width, maxWidth);
    BreaksAreGreedy(t, width, maxWidth);
    InsertBreaksKeeps(t, b);
    InsertBreaksLength(t, b);
    assert BreaksBelow(b, |t|) == b;
  }

  /** Every line of two or more characters, and every such prefix of a line, fits. */
  lemma LinesFit(t: string, width: string -> int, maxWidth: int)
    ensures var b := Breaks(t, width, maxWidth);
      forall n :: 0 < n <= |t| && Start(b, n) + 2 <= n ==> width(t[Start(b, n)..n]) <= maxWidth
  {
    var b := Breaks(t, width, maxWidth);
    BreaksAreGreedy(t, width, maxWidth);
    forall n | 0 < n <= |t| && Start(b, n) + 2 <= n
      ensures width(t[Start(b, n)..n]) <= maxWidth
    {
      assert n - 1 !in b;
      assert Start(b, n) == Start(b, n - 1);
      assert Rule(t, b, width, maxWidth, n - 1);
    }
  }

  /** A first character wider than the limit gets a newline in front of it. */
  lemma LeadingBreak(t: string, width: string -> int, maxWidth: int)
    requires |t| > 0
    ensures 0 in Breaks(t, width, maxWidth) <==> width(t[..1]) > maxWidth
  {
    BreaksAreGreedy(t, width, maxWidth);
    assert Rule(t, Breaks(t, width, maxWidth), width, maxWidth, 0);
  }

  /** `t` with every newline removed. */
  function DropNewlines(t: string): (r: string)
    ensures '\n' !in r
    ensures |r| <= |t|
    decreases |t|
  {
    if |t| == 0 then "" else DropNewlines(t[..|t| - 1]) + Shown(t[|t| - 1])
  }

  /** What `DropNewlines` keeps of one character. */
  function Shown(c: char): string
  {
    if c == '\n' then "" else [c]
  }

  /** Appending one character keeps it unless it is a newline. */
  lemma DropNewlinesSnoc(a: string, c: char)
    ensures DropNewlines(a + [c]) == DropNewlines(a) + Shown(c)
  {
    assert (a + [c])[..|a|] == a;
  }

  /** Inserting line breaks neither drops nor reorders any other character. */
  lemma {:induction false} InsertBreaksKeeps(t: string, breaks: set<int>)
    ensures DropNewlines(InsertBreaks(t, breaks)) == DropNewlines(t)
    decreases |t|
  {
    if |t| > 0 {
      var n := |t|;
      var p := t[..n - 1];
      var c := t[n - 1];
      var x := InsertBreaks(p, breaks);
      var nl := if n - 1 in breaks then "\n" else "";
      calc {
        DropNewlines(InsertBreaks(t, breaks));
        DropNewlines(x + nl + [c]);
        { DropNewlinesSnoc(x + nl, c); }
        DropNewlines(x + nl) + Shown(c);
        { if nl == "\n" { DropNewlinesSnoc(x, '\n'); } else { assert x + nl == x; } }
        DropNewlines(x) + Shown(c);
        { InsertBreaksKeeps(p, breaks); }
        DropNewlines(p) + Shown(c);
        { DropNewlinesSnoc(p, c); assert p + [c] == t; }
        DropNewlines(t);
      }
    }
  }

  /** The breaks that fall on characters of a text of length `n`. */
  function BreaksBelow(breaks: set<int>, n: int): set<int>
  {
    set i | i in breaks && 0 <= i < n
  }

  /** Inserting adds exactly one character per break that falls on a character. */
  lemma {:induction false} InsertBreaksLength(t: string, breaks: set<int>)
    ensures |InsertBreaks(t, breaks)| == |t| + |BreaksBelow(breaks, |t|)|
    decreases |t|
  {
    var n := |t|;
    if n > 0 {
      InsertBreaksLength(t[..n - 1], breaks);
      if n - 1 in breaks {
        assert BreaksBelow(breaks, n) == BreaksBelow(breaks, n - 1) + {n - 1};
      } else {
        assert BreaksBelow(breaks, n) == BreaksBelow(breaks, n - 1);
      }
    } else {
      assert BreaksBelow(breaks, n) == {};
    }
  }

  /** Adding a character runs one more iteration of the loop. */
  lemma ConsumeSnoc(t: string, c: char, width: string -> int, maxWidth: int)
    ensures Consume(t + [c], width, maxWidth) == Step(Consume(t, width, maxWidth), c, width, maxWidth)
  {
    assert (t + [c])[..|t|] == t;
  }

  /** The monospaced font of the example: every character advances by 10. */
  function Mono(s: string): int
  {
    10 * |s|
  }

  lemma MonospacedFirstLine()
    ensures Consume("abc", Mono, 30) == Lines("abc", "abc")
  {
    ConsumeSnoc("", 'a', Mono, 30);
    ConsumeSnoc("a", 'b', Mono, 30);
    ConsumeSnoc("ab", 'c', Mono, 30);
  }

  lemma MonospacedSecondBreak()
    ensures Consume("abcd", Mono, 30) == Lines("abc\nd", "d")
  {
    MonospacedFirstLine();
    assert "abc" + ['d'] == "abcd";
    ConsumeSnoc("abc", 'd', Mono, 30);
  }

  lemma MonospacedSecondLine()
    ensures Consume("abcdef", Mono, 30) == Lines("abc\ndef", "def")
  {
    MonospacedSecondBreak();
    assert "abcd" + ['e'] == "abcde";
    ConsumeSnoc("abcd", 'e', Mono, 30);
    assert Consume("abcde", Mono, 30) == Lines("abc\nde", "de");
    assert "abcde" + ['f'] == "abcdef";
    ConsumeSnoc("abcde", 'f', Mono, 30);
  }

  /** A monospaced font of advance 10 and a limit of 30 wrap "abcdefgh" into lines of three. */
  lemma MonospacedExample()
    ensures WrapText(Some("abcdefgh"), Mono, 30) == "abc\ndef\ngh"
  {
    MonospacedSecondLine();
    assert "abcdef" + ['g'] == "abcdefg";
    ConsumeSnoc("abcdef", 'g', Mono, 30);
    assert Consume("abcdefg", Mono, 30) == Lines("abc\ndef\ng", "g");
    assert "abcdefg" + ['h'] == "abcdefgh";
    ConsumeSnoc("abcdefg", 'h', Mono, 30);
  }
}

=== FILE: wrappers.dfy ===
/** Python's `None`-or-value, used for dialog results and nullable texts. */
module Wrappers {

  datatype Option<+T> = None | Some(value: T)
}
